=== FILE: README.md ===
# loki-mcp query pipeline — a Dafny model

This project models the logic of the Loki adapter in `internal/handlers/loki.go`.
The adapter exposes three tools, `loki_query`, `loki_label_names` and `loki_label_values`.
Each tool runs the same pipeline:

1. Resolve parameters. Each field comes from a non-empty argument, else the environment, else a default.
2. Parse the `start`/`end` time expressions.
3. Build the backend URL: the `/loki/api/v1/...` path rule plus query parameters with overwrite semantics.
4. Choose the auth and organization headers.
5. Accept or reject the response: the HTTP status first, then JSON decoding, then the envelope `status`.
6. Render the envelope as raw, json or text.

All of this is modelled as pure functions over immutable datatypes.
Everything the Go code delegates to a library or to the outside world is opaque.
Such a dependency is passed in as a function-typed field of a record: `TimeParse.Clock`, `SeriesFormat.TsCodec` and `Handlers.World`.
This covers the clock, `time.ParseDuration`, `time.Parse`, `url.Parse`, `url.PathEscape`, base64, the HTTP exchange, JSON decoding and encoding, and timestamp rendering.
The environment variables (`LOKI_URL`, `LOKI_ORG_ID`, `LOKI_USERNAME`, `LOKI_PASSWORD`, `LOKI_TOKEN`) arrive as the record `Params.Env`.

Files and modules:

| file | module | models |
|---|---|---|
| base.dfy | `Base` | `Result` (Go error = its message), `Option`, `Wrap` (`fmt.Errorf("ctx: %v", err)`) |
| text.dfy | `Text` | `strings.Contains/HasPrefix/HasSuffix/Join`, `%d`, and `Lines`, which reads output back as lines |
| timeparse.dfy | `TimeParse` | `parseTime` |
| params.dfy | `Params` | the parameter-resolution blocks of the three `Handle*` functions |
| urls.dfy | `UrlBuilder` | `buildLokiQueryURL`, `buildLokiLabelsURL`, `buildLokiLabelValuesURL` |
| responses.dfy | `Responses` | `LokiResult`, `LokiData`, `LokiEntry`, and the two list envelopes |
| client.dfy | `Client` | header choice and response acceptance in the `executeLoki*` functions |
| format.dfy | `Format` | `formatLokiLabelsResults`, `formatLokiLabelValuesResults` |
| series.dfy | `SeriesFormat` | `formatLokiResults` |
| handlers.dfy | `Handlers` | the three `Handle*` functions composed from the steps above |

Modelling choices:

- Instants are integers counting nanoseconds since the Unix epoch.
  `time.Time.Unix()` is floor division by 10^9, which is what Dafny's `/` does for a positive divisor.
- `url.Values` is `map<string, seq<string>>`.
  `Set` maps the key to a one-element sequence, so "each parameter occurs once" can be stated.
- A parsed URL is the record `Url(origin, path, query)`.
  `path` is Go's decoded `u.Path`. `origin` stands for the scheme, host and other parts the builders pass through.
- Go's `map[string]string` for stream labels has no defined iteration order.
  `Entry.stream` is the sequence of pairs in the order one `range` loop visits them, so it may be any order.
  The properties are stated against the map that sequence denotes (`Responses.StreamMap`).
- A tool argument is `Params.Arg`: a string, a number (`float64`, here a `real`), or anything else.
  `query` and `label` are asserted to be strings without a check in `loki.go`, so they appear as preconditions.

Behaviour of `loki.go` the model keeps:

- Only status 200 is accepted (loki.go:349-365); any other status is rejected.
- A missing `query` or `label` argument panics in the Go code, so it is a precondition here.
- Errors are the message strings the Go code builds.
- The text-mode header of a stream without labels reads `"Stream  1:"`, with two spaces.
  This is what `fmt.Sprintf("%s %d:\n", "Stream ", 1)` produces.
- `loki_test.go` expects second-resolution timestamps and a `Metric` field that `loki.go` does not have.
  The model follows `loki.go`, which always converts nanoseconds. That conversion sits inside the opaque `render`.

## Model

| member | source | states |
|---|---|---|
| Text.DecimalRoundTrip | internal/handlers/loki.go:303-305 | the `%d` rendering of any integer, including a negative one, reads back as that integer |
| Text.DecimalInjective | internal/handlers/loki.go:303-305 | distinct integers give distinct `%d` renderings |
| TimeParse.FirstLayout | internal/handlers/loki.go:262-274 | returns the instant of the first layout that accepts the string, and None exactly when every layout rejects it |
| TimeParse.ParseTime | internal/handlers/loki.go:242-277 | `now` wins first. A leading `-` with a parsable duration gives now+d; an unparsable one falls through. Otherwise the result is the first of RFC 3339 and the three fallback layouts that accepts. It fails with `unsupported time format: <s>` iff none applies |
| TimeParse.ParseTimeIsFirstCandidate | internal/handlers/loki.go:242-277 | `parseTime` equals the first defined entry of the ordered candidate list [now, relative, RFC 3339, three layouts], else the error |
| Params.ResolveConnection | internal/handlers/loki.go:137-206 | each of url/username/password/token/org/format is the argument iff it is a non-empty string. Otherwise url/username/password/token/org come from the environment and format is `raw`. An empty environment url becomes `http://localhost:3100`, so neither url nor format is ever empty |
| Params.ArgumentsOverrideEnvironment | internal/handlers/loki.go:139-174 | a field given as an argument does not depend on the environment |
| Params.EmptyStringIsAbsent | internal/handlers/loki.go:139-206 | an empty-string argument resolves the connection, the time window and the limit exactly as if it were absent |
| Params.TruncateTowardZero | internal/handlers/loki.go:198-200 | `int(f)`: the result has the sign of f, and its magnitude is within 1 below f's magnitude |
| Params.ResolveLimit | internal/handlers/loki.go:179-200 | limit is the truncated number when `limit` is a number, else 100 (a string limit is ignored) |
| Params.ResolveBound | internal/handlers/loki.go:182-196 | an absent bound gives the default. A given bound that parses gives the Unix seconds of the parsed instant. A given bound that does not parse fails with `invalid <key> time: unsupported time format: <s>` |
| Params.ResolveWindow | internal/handlers/loki.go:176-196 | the defaults are [now-1h, now] in Unix seconds. A given bound is the parsed instant in Unix seconds. A bad start is reported before a bad end. It succeeds iff every given bound parses |
| Params.ResolveQuery | internal/handlers/loki.go:132-206 | `loki_query` parameters: fails only through the time window, otherwise the resolved connection, query, window and limit |
| Params.ResolveLabels | internal/handlers/loki.go:562-626 | `loki_label_names` parameters: fails only through the time window |
| Params.ResolveLabelValues | internal/handlers/loki.go:650-715 | `loki_label_values` parameters: fails only through the time window, and carries the label name |
| UrlBuilder.EndpointPath | internal/handlers/loki.go:286-298 | `/loki/api/v1/<op>` for an empty or root path. `<path>/loki/api/v1/<op>` for another path without the prefix. `<path>/<op>` for a path with the prefix but without the operation suffix. The path itself otherwise. So the result always contains the prefix, ends with the operation and extends the path |
| UrlBuilder.EndpointPathIdempotent | internal/handlers/loki.go:286-298 | applying the path rule to its own output changes nothing |
| UrlBuilder.LabelValuesPath | internal/handlers/loki.go:775-787 | `/loki/api/v1/label/<escaped>/values` for an empty or root path, and `<path>/loki/api/v1/label/<escaped>/values` for another path without the prefix. `<path>/label/<escaped>/values` for a path with the prefix but no `/label/`. Otherwise the path is untouched, so the label name is not inserted |
| UrlBuilder.LabelValuesPathIdempotent | internal/handlers/loki.go:775-787 | the label-values path rule is idempotent |
| UrlBuilder.QueryRangeParams | internal/handlers/loki.go:300-306 | query/start/end/limit each map to exactly one value: the query, or the `%d` rendering. The key set grows by exactly these four. Every other parameter survives unchanged |
| UrlBuilder.QueryRangeParamsReadBack | internal/handlers/loki.go:300-306 | the start, end and limit parameters each hold one value that parses back to the number given |
| UrlBuilder.WindowParams | internal/handlers/loki.go:759-763 | start/end each map to exactly one decimal value, and every other parameter survives unchanged |
| UrlBuilder.WindowParamsReadBack | internal/handlers/loki.go:789-793 | start and end parse back to the numbers given |
| UrlBuilder.BuildQueryUrl | internal/handlers/loki.go:280-309 | fails iff the base URL does not parse, with the parser's error. Otherwise the origin is kept, the path follows the path rule and the query follows the parameter rule |
| UrlBuilder.BuildLabelsUrl | internal/handlers/loki.go:739-766 | the same for the labels endpoint |
| UrlBuilder.BuildLabelValuesUrl | internal/handlers/loki.go:769-796 | the same for the label-values endpoint, with the escaped label name |
| UrlBuilder.BuildQueryUrlIdempotent | internal/handlers/loki.go:280-309 | building again from a built URL yields that same URL: no duplicated path segment and no repeated parameter |
| UrlBuilder.BuildLabelsUrlIdempotent | internal/handlers/loki.go:739-766 | building the labels URL again from its output changes nothing |
| UrlBuilder.BuildLabelValuesUrlIdempotent | internal/handlers/loki.go:769-796 | building the label-values URL again from its output changes nothing |
| Client.RequestHeaders | internal/handlers/loki.go:319-331 | `Authorization` is exactly `Bearer <token>` when the token is non-empty. Otherwise it is `Basic base64(user:pass)` when either credential is non-empty, and absent otherwise. `X-Scope-OrgID` is present with the org ID iff that ID is non-empty. No other header is added |
| Client.OrgHeaderIndependentOfAuth | internal/handlers/loki.go:806-816 | a token fixes the auth header whatever the basic credentials are. The org header does not depend on any credential |
| Client.Accept | internal/handlers/loki.go:349-365 | a non-200 status fails with `HTTP error: <code> - <body>`. Then a decode failure passes on the decoder's error. Then status `error` fails with `loki error: <msg>`. Otherwise the decoded envelope is returned unchanged (the same logic is at 834-850 and 889-905) |
| Client.StatusCheckedBeforeDecoding | internal/handlers/loki.go:834-850 | for a non-200 status the outcome does not depend on the decoder |
| Client.HttpErrorNamesStatus | internal/handlers/loki.go:890-892 | the HTTP error message holds the status code, which reads back, and ends with the body |
| Format.TextListLines | internal/handlers/loki.go:936-944 | text list output is the headline, a blank line, then `"<i>. <item>"` for i = 1..N. Stripping the numbers gives back the items |
| Format.FormatLabels | internal/handlers/loki.go:909-949 | an empty list gives `No labels found` (or its JSON message) for any format string, even an unsupported one. A non-empty list with an unsupported format fails with the supported list. json gives the serialised envelope. raw is exactly each label followed by a newline, so it splits back into the labels. text is exactly `Found N labels:`, a blank line, then `<i>. <label>` and a newline per label. Its numbers strip back to the labels |
| Format.FormatLabelValues | internal/handlers/loki.go:952-992 | the same for label values, with `No values found for label '<name>'` and `Found N values for label '<name>':`: raw and text output are stated as exact strings, each line ending in a newline |
| SeriesFormat.RawLabelBlock | internal/handlers/loki.go:392-400 | the block is empty iff the stream has no labels. Otherwise it is exactly `{`, the `k=v` parts joined by `,`, then `} `, and it contains `k=v` for every visited label |
| SeriesFormat.TextLabelBlock | internal/handlers/loki.go:428-440 | the block is empty iff the stream has no labels. Otherwise it is exactly `(`, the `k=v` parts joined by `, `, then `)`, and it contains `k=v` for every visited label |
| SeriesFormat.LongPairs | internal/handlers/loki.go:402-403 | keeps exactly the value pairs with at least two elements, each as many times as it occurs (duplicates print twice), and drops the shorter ones |
| SeriesFormat.LongPairsAppend | internal/handlers/loki.go:402-403 | filtering keeps the input order: the kept pairs of a concatenation are those of the first part followed by those of the second |
| SeriesFormat.RawValueLinesShape | internal/handlers/loki.go:402-417 | one entry's raw output is the newline-terminated lines, one per pair with at least two elements, in order. Each line is the timestamp, a space, the label block and the log line. The timestamp is rendered when numeric and verbatim otherwise |
| SeriesFormat.RawEntriesShape | internal/handlers/loki.go:388-419 | raw output over all entries is the concatenation of those lines, entry after entry |
| SeriesFormat.TextBlocks | internal/handlers/loki.go:426-459 | there is one text block per entry, in order. Block i is `Stream[ (labels)] n+i:`, then `[ts] line` per pair with at least two elements, then a blank line |
| SeriesFormat.TextEntriesNumbered | internal/handlers/loki.go:421-460 | the text loop's output is exactly the concatenation of those blocks, so entry i carries the number i+1 |
| SeriesFormat.TextValueLinesShape | internal/handlers/loki.go:445-457 | one entry's text lines are `[ts] line`, each ended by a newline, one per pair with at least two elements, in order. The timestamp is rendered when numeric and verbatim otherwise |
| SeriesFormat.FormatSeries | internal/handlers/loki.go:369-465 | an empty result gives `No logs found matching the query` (JSON message under json) for any format string. A non-empty result with an unsupported format fails with the supported list. json gives the serialised envelope. raw is exactly the raw lines. text is `Found N streams:`, a blank line and the numbered blocks |
| SeriesFormat.StreamMapSize | internal/handlers/loki.go:394-397 | with distinct labels, one iteration of the map visits one pair per key |
| SeriesFormat.LabelPartsDescribeMap | internal/handlers/loki.go:393-400 | whatever the iteration order, the label parts are one per label of the map, each `k=v` with v the map's value, and nothing else |
| SeriesFormat.VisitsEachEntryOnce | internal/handlers/loki.go:394-397 | with distinct labels, an iteration visits every entry of its label map exactly once and nothing else |
| SeriesFormat.PermutedParts | internal/handlers/loki.go:394-399 | visiting the same pairs in another order renders the same parts with the same multiplicities |
| SeriesFormat.IterationOrderIrrelevant | internal/handlers/loki.go:430-440 | two iterations of the same label map give the same label parts, each the same number of times (equal multisets) |
| Handlers.Execute | internal/handlers/loki.go:312-366 | a transport error is passed on. Then a non-200 status fails with `HTTP error: <code> - <body>`. Then an undecodable body passes on the decoder's error. Then status `error` fails with `loki error: <msg>`. It succeeds exactly otherwise, with the decoded envelope |
| Handlers.PlanQuery | internal/handlers/loki.go:132-215 | a bad time fails first with its `invalid ... time` message, then a bad base URL with `failed to build query URL: ...`. It succeeds exactly when the window and the base URL are both fine, and then the request carries the resolved headers and the built URL |
| Handlers.RespondQuery | internal/handlers/loki.go:214-224 | a transport, status, decode or Loki error is reported as `query execution failed: ` followed by that message. For an accepted answer: no streams gives `No logs found matching the query` for any non-json format. A non-empty answer with an unsupported format fails with `failed to format results: unsupported format: ...`. Otherwise the formatted output |
| Handlers.HandleQuery | internal/handlers/loki.go:132-230 | from arguments to output, errors come in this order: `invalid start time: ...`, `invalid end time: ...`, `failed to build query URL: <parse error>`, then `query execution failed: ` followed by the transport error, `HTTP error: <code> - <body>`, the decode error or `loki error: <msg>`, then `failed to format results: unsupported format: ...`. An empty answer gives `No logs found matching the query` under any non-json format |
| Handlers.PlanLabels | internal/handlers/loki.go:562-632 | the same plan for label names, with `failed to build labels URL: `. It succeeds exactly when the window and the base URL are fine |
| Handlers.RespondLabels | internal/handlers/loki.go:634-646 | a transport, status, decode or Loki error is reported as `labels query execution failed: ` followed by that message. An empty accepted list gives `No labels found` for any non-json format. An unsupported format fails with `failed to format results: ...` |
| Handlers.HandleLabelNames | internal/handlers/loki.go:562-647 | the same end-to-end error order for `loki_label_names`, with `failed to build labels URL: ` and `labels query execution failed: `, and `No labels found` for an empty answer |
| Handlers.PlanLabelValues | internal/handlers/loki.go:650-721 | the same plan for label values, with `failed to build label values URL: `. It succeeds exactly when the window and the base URL are fine |
| Handlers.RespondLabelValues | internal/handlers/loki.go:723-735 | a transport, status, decode or Loki error is reported as `label values query execution failed: ` followed by that message. An empty accepted list gives `No values found for label '<name>'` for any non-json format. An unsupported format fails with `failed to format results: ...` |
| Handlers.HandleLabelValues | internal/handlers/loki.go:650-736 | the same end-to-end error order for `loki_label_values`, with `failed to build label values URL: ` and `label values query execution failed: `, and `No values found for label '<name>'` for an empty answer |
| Handlers.TokenArgumentAuthenticates | internal/handlers/loki.go:163-174 | for each of the three tools, a token argument makes the request carry exactly `Bearer <token>`, whatever basic credentials exist. The org header follows the resolved org alone |
| Handlers.EmptyQueryResultAnyFormat | internal/handlers/loki.go:214-224 | once the exchange yields an accepted result with no streams, the query ends with `No logs found matching the query` under any non-json format string, even an unsupported one |

## Left out

- HTTP transport is not modelled. This covers `http.NewRequestWithContext`, `client.Do`, the 30-second timeout, context cancellation, `io.ReadAll` and closing the body. It is I/O, and `World.exchange` stands for it; a failure to create the request counts as an exchange error.
- JSON decoding and `json.MarshalIndent` are opaque (`decodeSeries`, `decodeList`, `serializeSeries`, `serializeList`). The "failed to marshal JSON" branch is not modelled: these envelope types always marshal.
- `time.Now`, `time.ParseDuration` and `time.Parse` are opaque fields of `Clock`.
  The clock is read once per call, while `loki.go` calls `time.Now()` separately for each default and each relative time.
- `strconv.ParseFloat`, the float-to-int64 conversion and `Format(time.RFC3339)` are opaque (`TsCodec`).
  So the "never year 2262" regression tests are not modelled; they depend on float and calendar arithmetic.
- `url.Parse`, `url.PathEscape`, `u.Query()` parsing, and turning the URL back into text (`q.Encode`, `u.String`) are not modelled.
  The builders return the `Url` record.
  The escaped label name is stored into the decoded `u.Path`, so its serialisation escapes it again. This is outside the model.
- Params.TruncateTowardZero: NaN, infinities and values outside the range of `int` have implementation-defined results in Go and are not modelled. The tool argument is a mathematical real.
- Client.RequestHeaders: `net/http` canonicalises header names (`X-Scope-Orgid`). Header names are compared case-insensitively on the wire, so the model keeps the names as written.
- The `NewLoki*Tool` constructors (schema and descriptions) and the empty `broadcastQueryResults` placeholder are left out: they contain no logic.
- A `query` or `label` argument that is missing or not a string makes the Go code panic. The model excludes it by precondition.
- Integer widths (`int64` for start/end, `int` for limit) are not modelled: the values are unbounded integers.

=== FILE: base.dfy ===
/** Failure-compatible wrappers shared by every module of the model.

    Go reports failures as an `error` value whose only observable content is
    its message, so `Result` carries the message text. */
module Base {

  datatype Option<+T> = None | Some(value: T)

  datatype Result<+T> = Success(value: T) | Failure(error: string) {

    predicate IsFailure() {
      Failure?
    }

    function PropagateFailure<U>(): Result<U>
      requires Failure?
    {
      Failure(error)
    }

    function Extract(): T
      requires Success?
    {
      value
    }
  }

  /** `fmt.Errorf("<context>: %v", err)`: prefixes a failure, keeps a success. */
  function Wrap<T>(context: string, r: Result<T>): Result<T>
  {
    match r
    case Success(v) => Success(v)
    case Failure(e) => Failure(context + ": " + e)
  }
}

=== FILE: client.dfy ===
/** The decisions inside the three `executeLoki*` functions: which headers the
    request carries and in which order a response is accepted or rejected.
    Sending the request and reading the body are left to an opaque exchange. */
module Client {
  import opened Base
  import opened Text
  import opened UrlBuilder
  import opened Responses

  datatype Header = Header(name: string, value: string)

  datatype Request = Request(url: Url, headers: seq<Header>)

  /** Status code and the whole body as read by `io.ReadAll`. */
  datatype Response = Response(statusCode: int, body: string)

  const StatusOK := 200
  const AuthorizationHeader := "Authorization"
  const OrgIdHeader := "X-Scope-OrgID"

  /** The values recorded under `name`, in the order they were added. */
  function HeaderValues(hs: seq<Header>, name: string): seq<string>
  {
    if hs == [] then []
    else (if hs[0].name == name then [hs[0].value] else []) + HeaderValues(hs[1..], name)
  }

  /** Headers `executeLoki*` adds: a bearer token (section 2.1 of RFC 6750) takes
      precedence over basic credentials (RFC 7617, `base64(user ":" password)`
      computed by `basicEncode`); the organization header is independent of
      both. */
  function RequestHeaders(basicEncode: string -> string, token: string, username: string, password: string,
                          orgId: string): (hs: seq<Header>)
    ensures HeaderValues(hs, AuthorizationHeader) ==
              (if token != "" then ["Bearer " + token]
               else if username != "" || password != "" then ["Basic " + basicEncode(username + ":" + password)]
               else [])
    ensures HeaderValues(hs, OrgIdHeader) == (if orgId != "" then [orgId] else [])
    ensures forall i :: 0 <= i < |hs| ==> hs[i].name in {AuthorizationHeader, OrgIdHeader}
  {
    var auth := if token != "" then [Header(AuthorizationHeader, "Bearer " + token)]
                else if username != "" || password != "" then
                  [Header(AuthorizationHeader, "Basic " + basicEncode(username + ":" + password))]
                else [];
    var org := if orgId != "" then [Header(OrgIdHeader, orgId)] else [];
    assert HeaderValues(auth, OrgIdHeader) == [];
    assert HeaderValues(org, AuthorizationHeader) == [];
    HeaderValuesAppend(auth, org, AuthorizationHeader);
    HeaderValuesAppend(auth, org, OrgIdHeader);
    auth + org
  }

  lemma {:induction false} HeaderValuesAppend(a: seq<Header>, b: seq<Header>, name: string)
    ensures HeaderValues(a + b, name) == HeaderValues(a, name) + HeaderValues(b, name)
  {
    if a == [] {
      assert a + b == b;
    } else {
      HeaderValuesAppend(a[1..], b, name);
      assert (a + b)[0] == a[0];
      assert (a + b)[1..] == a[1..] + b;
    }
  }

  /** Whether and how the request authenticates does not affect the
      organization header, and a token wins over any basic credentials. */
  lemma OrgHeaderIndependentOfAuth(basicEncode: string -> string, orgId: string,
                                   t1: string, u1: string, p1: string, t2: string, u2: string, p2: string)
    requires t1 != ""
    ensures HeaderValues(RequestHeaders(basicEncode, t1, u1, p1, orgId), AuthorizationHeader)
            == HeaderValues(RequestHeaders(basicEncode, t1, u2, p2, orgId), AuthorizationHeader)
    ensures HeaderValues(RequestHeaders(basicEncode, t1, u1, p1, orgId), OrgIdHeader)
            == HeaderValues(RequestHeaders(basicEncode, t2, u2, p2, orgId), OrgIdHeader)
  {
  }

  function HttpErrorMessage(code: int, body: string): string
  {
    "HTTP error: " + IntToDecimal(code) + " - " + body
  }

  function LokiErrorMessage(message: string): string
  {
    "loki error: " + message
  }

  /** Acceptance of a response: status code first, then decoding (whose own
      error is passed on), then the envelope's `status` field. */
  function Accept<P>(resp: Response, decode: string -> Result<Envelope<P>>): (r: Result<Envelope<P>>)
    ensures resp.statusCode != StatusOK ==> r == Failure(HttpErrorMessage(resp.statusCode, resp.body))
    ensures resp.statusCode == StatusOK && decode(resp.body).Failure? ==> r == decode(resp.body)
    ensures resp.statusCode == StatusOK && decode(resp.body).Success? && decode(resp.body).value.status == "error" ==>
              r == Failure(LokiErrorMessage(decode(resp.body).value.error))
    ensures r.Success? <==>
              resp.statusCode == StatusOK && decode(resp.body).Success? && decode(resp.body).value.status != "error"
    ensures r.Success? ==> r == decode(resp.body)
  {
    if resp.statusCode != StatusOK then Failure(HttpErrorMessage(resp.statusCode, resp.body))
    else
      var env :- decode(resp.body);
      if env.status == "error" then Failure(LokiErrorMessage(env.error)) else Success(env)
  }

  /** A rejected status is reported before the body is looked at: the decoder
      cannot influence the outcome. */
  lemma StatusCheckedBeforeDecoding<P>(resp: Response, d1: string -> Result<Envelope<P>>,
                                       d2: string -> Result<Envelope<P>>)
    requires resp.statusCode != StatusOK
    ensures Accept(resp, d1) == Accept(resp, d2)
  {
  }

  /** The status code in an HTTP error message reads back as the code. */
  lemma HttpErrorNamesStatus(code: int, body: string)
    ensures var m := HttpErrorMessage(code, body);
      var n := |"HTTP error: "|;
      var d := |IntToDecimal(code)|;
      && n + d <= |m| && ParseDecimal(m[n..n + d]) == Some(code) && HasSuffix(m, body)
  {
    var m := HttpErrorMessage(code, body);
    assert m[12..12 + |IntToDecimal(code)|] == IntToDecimal(code);
    DecimalRoundTrip(code);
    SuffixOfAppend("HTTP error: " + IntToDecimal(code) + " - ", body);
  }
}

=== FILE: format.dfy ===
/** `formatLokiLabelsResults` and `formatLokiLabelValuesResults`: the
    empty-list short-circuit, the dispatch on the format name, and the exact
    text of raw and text output.

    JSON output is `json.MarshalIndent` of the envelope and is opaque
    (`serialize`). */
module Format {
  import opened Base
  import opened Text
  import opened Responses

  const SupportedFormats := "raw, json, text"

  predicate IsSupported(format: string)
  {
    format == "raw" || format == "json" || format == "text"
  }

  function UnsupportedFormat(format: string): string
  {
    "unsupported format: " + format + ". Supported formats: " + SupportedFormats
  }

  /** None of the strings contains a newline. */
  predicate NoNewlines(items: seq<string>)
  {
    forall i :: 0 <= i < |items| ==> '\n' !in items[i]
  }

  // ================================================================ lists

  /** The numbered lines `"<n + i>. <items[i]>"` of the text rendering. */
  function NumberedLines(items: seq<string>, n: nat): (ls: seq<string>)
    ensures |ls| == |items|
  {
    seq(|items|, i requires 0 <= i < |items| => NatToDecimal(n + i) + ". " + items[i])
  }

  /** The loop `output += fmt.Sprintf("%d. %s\n", i+1, item)`, numbering from `n`. */
  function NumberedItems(items: seq<string>, n: nat): string
  {
    if items == [] then "" else NatToDecimal(n) + ". " + items[0] + "\n" + NumberedItems(items[1..], n + 1)
  }

  lemma {:induction false} NumberedItemsAreNumberedLines(items: seq<string>, n: nat)
    ensures NumberedItems(items, n) == ConcatTerminated(NumberedLines(items, n))
  {
    if items != [] {
      NumberedItemsAreNumberedLines(items[1..], n + 1);
      assert NumberedLines(items, n)[1..] == NumberedLines(items[1..], n + 1);
    }
  }

  /** Drops a leading run of digits. */
  function DropDigits(s: string): string
  {
    if s != [] && IsDigit(s[0]) then DropDigits(s[1..]) else s
  }

  lemma {:induction false} DropDigitsPrefix(d: string, rest: string)
    requires AllDigits(d)
    requires rest == [] || !IsDigit(rest[0])
    ensures DropDigits(d + rest) == rest
  {
    if d == [] {
      assert d + rest == rest;
    } else {
      assert (d + rest)[1..] == d[1..] + rest;
      DropDigitsPrefix(d[1..], rest);
    }
  }

  /** What a reader of a numbered line keeps: the text after `"<digits>. "`. */
  function StripNumber(line: string): string
  {
    var rest := DropDigits(line);
    if HasPrefix(rest, ". ") then rest[2..] else rest
  }

  /** The item list a reader recovers from text output: every line after the
      header and the blank line, with its number stripped. */
  function ItemsOfText(out: string): seq<string>
  {
    var ls := Lines(out);
    if |ls| < 2 then [] else seq(|ls| - 2, i requires 0 <= i < |ls| - 2 => StripNumber(ls[i + 2]))
  }

  lemma NumberedLinesHaveNoNewline(items: seq<string>, n: nat)
    requires NoNewlines(items)
    ensures NoNewlines(NumberedLines(items, n))
  {
    var ls := NumberedLines(items, n);
    forall i | 0 <= i < |ls|
      ensures '\n' !in ls[i]
    {
      var d := NatToDecimal(n + i);
      assert ls[i] == d + ". " + items[i];
      assert forall j :: 0 <= j < |d| ==> IsDigit(d[j]);
    }
  }

  lemma StripNumberedLines(items: seq<string>, n: nat)
    ensures forall i :: 0 <= i < |items| ==> StripNumber(NumberedLines(items, n)[i]) == items[i]
  {
    var ls := NumberedLines(items, n);
    forall i | 0 <= i < |items|
      ensures StripNumber(ls[i]) == items[i]
    {
      assert ls[i] == NatToDecimal(n + i) + (". " + items[i]);
      DropDigitsPrefix(NatToDecimal(n + i), ". " + items[i]);
    }
  }

  /** Text list output is a header line, a blank line and the numbered lines. */
  lemma TextListShape(headline: string, items: seq<string>)
    requires '\n' !in headline && NoNewlines(items)
    ensures Lines(headline + "\n\n" + NumberedItems(items, 1)) == [headline, ""] + NumberedLines(items, 1)
  {
    NumberedItemsAreNumberedLines(items, 1);
    NumberedLinesHaveNoNewline(items, 1);
    LinesOfTerminated(NumberedLines(items, 1));
    LinesAfterHeadline(headline, NumberedItems(items, 1));
  }

  lemma ItemsOfHeadedText(out: string, headline: string, ls: seq<string>)
    requires Lines(out) == [headline, ""] + ls
    ensures ItemsOfText(out) == seq(|ls|, i requires 0 <= i < |ls| => StripNumber(ls[i]))
  {
  }

  /** The items can be read back from text list output. */
  lemma TextListLines(headline: string, items: seq<string>)
    requires '\n' !in headline && NoNewlines(items)
    ensures Lines(headline + "\n\n" + NumberedItems(items, 1)) == [headline, ""] + NumberedLines(items, 1)
    ensures ItemsOfText(headline + "\n\n" + NumberedItems(items, 1)) == items
  {
    var out := headline + "\n\n" + NumberedItems(items, 1);
    var ls := NumberedLines(items, 1);
    TextListShape(headline, items);
    ItemsOfHeadedText(out, headline, ls);
    StripNumberedLines(items, 1);
  }

  function LabelsHeadline(count: int): string
  {
    "Found " + IntToDecimal(count) + " labels:"
  }

  function ValuesHeadline(labelName: string, count: int): string
  {
    "Found " + IntToDecimal(count) + " values for label '" + labelName + "':"
  }

  /** Shared shape of the two list formatters. */
  function FormatList(items: seq<string>, format: string, serialize: () -> string,
                      emptyJson: string, emptyText: string, headline: string): (r: Result<string>)
    ensures |items| == 0 ==> r == Success(if format == "json" then emptyJson else emptyText)
    ensures |items| > 0 && !IsSupported(format) ==> r == Failure(UnsupportedFormat(format))
    ensures |items| > 0 && format == "json" ==> r == Success(serialize())
    ensures |items| > 0 && format == "raw" ==> r == Success(ConcatTerminated(items))
    ensures |items| > 0 && format == "raw" && NoNewlines(items) ==> Lines(r.value) == items
    ensures |items| > 0 && format == "text" ==>
              r == Success(headline + "\n\n" + ConcatTerminated(NumberedLines(items, 1)))
    ensures |items| > 0 && format == "text" ==>
              (r.Success? &&
               ('\n' !in headline && NoNewlines(items) ==>
                  Lines(r.value) == [headline, ""] + NumberedLines(items, 1) && ItemsOfText(r.value) == items))
  {
    if |items| == 0 then Success(if format == "json" then emptyJson else emptyText)
    else if format == "json" then Success(serialize())
    else if format == "raw" then
      (if NoNewlines(items) then LinesOfTerminated(items); Success(ConcatTerminated(items))
       else Success(ConcatTerminated(items)))
    else if format == "text" then
      NumberedItemsAreNumberedLines(items, 1);
      (if '\n' !in headline && NoNewlines(items) then TextListLines(headline, items); Success(headline + "\n\n" + NumberedItems(items, 1))
       else Success(headline + "\n\n" + NumberedItems(items, 1)))
    else Failure(UnsupportedFormat(format))
  }

  lemma HeadlinesHaveNoNewline(labelName: string, count: int)
    ensures '\n' !in LabelsHeadline(count)
    ensures '\n' !in labelName ==> '\n' !in ValuesHeadline(labelName, count)
  {
    var d := IntToDecimal(count);
    assert forall i :: 0 <= i < |d| ==> d[i] == '-' || IsDigit(d[i]);
  }

  /** `formatLokiLabelsResults` */
  function FormatLabels(result: Envelope<seq<string>>, format: string, serialize: Envelope<seq<string>> -> string)
    : (r: Result<string>)
    ensures |result.data| == 0 ==>
              r == Success(if format == "json" then "{\"message\": \"No labels found\"}" else "No labels found")
    ensures |result.data| > 0 && !IsSupported(format) ==> r == Failure(UnsupportedFormat(format))
    ensures |result.data| > 0 && format == "json" ==> r == Success(serialize(result))
    ensures |result.data| > 0 && format == "raw" ==> r == Success(ConcatTerminated(result.data))
    ensures |result.data| > 0 && format == "raw" && NoNewlines(result.data) ==> Lines(r.value) == result.data
    ensures |result.data| > 0 && format == "text" ==>
              r == Success(LabelsHeadline(|result.data|) + "\n\n" + ConcatTerminated(NumberedLines(result.data, 1)))
    ensures |result.data| > 0 && format == "text" ==>
              (r.Success? &&
               (NoNewlines(result.data) ==>
                  Lines(r.value) == [LabelsHeadline(|result.data|), ""] + NumberedLines(result.data, 1) &&
                  ItemsOfText(r.value) == result.data))
  {
    HeadlinesHaveNoNewline("", |result.data|);
    FormatList(result.data, format, () => serialize(result),
               "{\"message\": \"No labels found\"}", "No labels found", LabelsHeadline(|result.data|))
  }

  /** `formatLokiLabelValuesResults` */
  function FormatLabelValues(labelName: string, result: Envelope<seq<string>>, format: string,
                             serialize: Envelope<seq<string>> -> string): (r: Result<string>)
    ensures |result.data| == 0 ==>
              r == Success(if format == "json" then "{\"message\": \"No values found for label '" + labelName + "'\"}"
                           else "No values found for label '" + labelName + "'")
    ensures |result.data| > 0 && !IsSupported(format) ==> r == Failure(UnsupportedFormat(format))
    ensures |result.data| > 0 && format == "json" ==> r == Success(serialize(result))
    ensures |result.data| > 0 && format == "raw" ==> r == Success(ConcatTerminated(result.data))
    ensures |result.data| > 0 && format == "raw" && NoNewlines(result.data) ==> Lines(r.value) == result.data
    ensures |result.data| > 0 && format == "text" ==>
              r == Success(ValuesHeadline(labelName, |result.data|) + "\n\n"
                           + ConcatTerminated(NumberedLines(result.data, 1)))
    ensures |result.data| > 0 && format == "text" ==>
              (r.Success? &&
               ('\n' !in labelName && NoNewlines(result.data) ==>
                  Lines(r.value) == [ValuesHeadline(labelName, |result.data|), ""] + NumberedLines(result.data, 1) &&
                  ItemsOfText(r.value) == result.data))
  {
    HeadlinesHaveNoNewline(labelName, |result.data|);
    FormatList(result.data, format, () => serialize(result),
               "{\"message\": \"No values found for label '" + labelName + "'\"}",
               "No values found for label '" + labelName + "'",
               ValuesHeadline(labelName, |result.data|))
  }
}

=== FILE: handlers.dfy ===
/** The three tool handlers `HandleLokiQuery`, `HandleLokiLabelNames` and
    `HandleLokiLabelValues` as compositions of the model's steps:
    resolve parameters, build the URL, choose headers, exchange, accept,
    format. Each failure is reported with the context prefix the Go handler adds. */
module Handlers {
  import opened Base
  import opened Text
  import opened TimeParse
  import opened Params
  import opened UrlBuilder
  import opened Client
  import opened Responses
  import opened Format
  import opened SeriesFormat

  /** Everything outside the model that the handlers call: clock and time
      parsing, `url.Parse`, `url.PathEscape`, base64 for basic credentials,
      the HTTP exchange (request out, status and body back, or a transport
      error), JSON decoding and `json.MarshalIndent`, and timestamp rendering. */
  datatype World = World(
    clock: Clock,
    parseUrl: string -> Result<Url>,
    pathEscape: string -> string,
    basicEncode: string -> string,
    exchange: Request -> Result<Response>,
    decodeSeries: string -> Result<Envelope<SeriesData>>,
    decodeList: string -> Result<Envelope<seq<string>>>,
    serializeSeries: Envelope<SeriesData> -> string,
    serializeList: Envelope<seq<string>> -> string,
    codec: TsCodec)

  function Headers(w: World, c: Connection): seq<Header>
  {
    RequestHeaders(w.basicEncode, c.token, c.username, c.password, c.orgId)
  }

  /** One `executeLoki*` call: a transport error is passed on, then the
      status code, the decoder and the envelope's `status` are checked in
      that order. */
  function Execute<P>(w: World, req: Request, decode: string -> Result<Envelope<P>>): (r: Result<Envelope<P>>)
    ensures w.exchange(req).Failure? ==> r == Failure(w.exchange(req).error)
    ensures var x := w.exchange(req);
            x.Success? && x.value.statusCode != StatusOK ==>
              r == Failure(HttpErrorMessage(x.value.statusCode, x.value.body))
    ensures var x := w.exchange(req);
            x.Success? && x.value.statusCode == StatusOK && decode(x.value.body).Failure? ==>
              r == Failure(decode(x.value.body).error)
    ensures var x := w.exchange(req);
            x.Success? && x.value.statusCode == StatusOK && decode(x.value.body).Success? &&
            decode(x.value.body).value.status == "error" ==>
              r == Failure(LokiErrorMessage(decode(x.value.body).value.error))
    ensures var x := w.exchange(req);
            r.Success? <==> x.Success? && x.value.statusCode == StatusOK && decode(x.value.body).Success? &&
                            decode(x.value.body).value.status != "error"
    ensures r.Success? ==> r.value == decode(w.exchange(req).value.body).value
  {
    var resp :- w.exchange(req);
    Accept(resp, decode)
  }

  /** What `HandleLokiQuery` sends, decided before any I/O. */
  function PlanQuery(args: Args, env: Env, w: World): (r: Result<Request>)
    requires "query" in args && args["query"].Str?
    ensures ResolveWindow(args, w.clock).Failure? ==> r == Failure(ResolveWindow(args, w.clock).error)
    ensures var c := ResolveConnection(args, env);
            ResolveWindow(args, w.clock).Success? && w.parseUrl(c.url).Failure? ==>
              r == Failure("failed to build query URL: " + w.parseUrl(c.url).error)
    ensures r.Success? <==> ResolveWindow(args, w.clock).Success? && w.parseUrl(ResolveConnection(args, env).url).Success?
    ensures r.Success? ==> var c, win := ResolveConnection(args, env), ResolveWindow(args, w.clock).value;
              && r.value.headers == Headers(w, c)
              && Success(r.value.url)
                 == BuildQueryUrl(w.parseUrl, c.url, args["query"].s, win.start, win.end, ResolveLimit(args))
  {
    var p :- ResolveQuery(args, env, w.clock);
    var u :- Wrap("failed to build query URL",
                  BuildQueryUrl(w.parseUrl, p.conn.url, p.query, p.window.start, p.window.end, p.limit));
    Success(Request(u, Headers(w, p.conn)))
  }

  /** The part of `HandleLokiQuery` after the request is built: the exchange
      and its acceptance fail under `query execution failed: `, the formatter
      under `failed to format results: `. */
  function RespondQuery(w: World, req: Request, format: string): (r: Result<string>)
    ensures var x := w.exchange(req);
      && (x.Failure? ==> r == Failure("query execution failed: " + x.error))
      && (x.Success? && x.value.statusCode != StatusOK ==>
            r == Failure("query execution failed: " + HttpErrorMessage(x.value.statusCode, x.value.body)))
      && (x.Success? && x.value.statusCode == StatusOK && w.decodeSeries(x.value.body).Failure? ==>
            r == Failure("query execution failed: " + w.decodeSeries(x.value.body).error))
      && (x.Success? && x.value.statusCode == StatusOK && w.decodeSeries(x.value.body).Success? &&
          w.decodeSeries(x.value.body).value.status == "error" ==>
            r == Failure("query execution failed: " + LokiErrorMessage(w.decodeSeries(x.value.body).value.error)))
    ensures Execute(w, req, w.decodeSeries).Success? ==>
              var e := Execute(w, req, w.decodeSeries).value;
              && (|e.data.result| == 0 && format != "json" ==> r == Success(NoLogs))
              && (|e.data.result| > 0 && !IsSupported(format) ==>
                    r == Failure("failed to format results: " + UnsupportedFormat(format)))
              && (|e.data.result| == 0 || IsSupported(format) ==>
                    r == Success(FormatSeries(e, format, w.serializeSeries, w.codec).value))
  {
    var env :- Wrap("query execution failed", Execute(w, req, w.decodeSeries));
    Wrap("failed to format results", FormatSeries(env, format, w.serializeSeries, w.codec))
  }

  /** `HandleLokiQuery` from arguments to tool output. Failures are reported in
      the order the handler meets them: a bad start, a bad end, a base URL that
      does not parse, a transport error, a rejected status, an undecodable
      body, a Loki-reported error, and finally an unsupported format. */
  function HandleQuery(args: Args, env: Env, w: World): (r: Result<string>)
    requires "query" in args && args["query"].Str?
    ensures Given(args, "start") && ParseTime(w.clock, args["start"].s).Failure? ==>
              r == Failure("invalid start time: " + UnsupportedTimeFormat(args["start"].s))
    ensures !(Given(args, "start") && ParseTime(w.clock, args["start"].s).Failure?) &&
            Given(args, "end") && ParseTime(w.clock, args["end"].s).Failure? ==>
              r == Failure("invalid end time: " + UnsupportedTimeFormat(args["end"].s))
    ensures var u := w.parseUrl(ResolveConnection(args, env).url);
            ResolveWindow(args, w.clock).Success? && u.Failure? ==> r == Failure("failed to build query URL: " + u.error)
    ensures var p := PlanQuery(args, env, w);
            p.Success? ==> var x := w.exchange(p.value);
              && (x.Failure? ==> r == Failure("query execution failed: " + x.error))
              && (x.Success? && x.value.statusCode != StatusOK ==>
                    r == Failure("query execution failed: " + HttpErrorMessage(x.value.statusCode, x.value.body)))
              && (x.Success? && x.value.statusCode == StatusOK && w.decodeSeries(x.value.body).Failure? ==>
                    r == Failure("query execution failed: " + w.decodeSeries(x.value.body).error))
              && (x.Success? && x.value.statusCode == StatusOK && w.decodeSeries(x.value.body).Success? &&
                  w.decodeSeries(x.value.body).value.status == "error" ==>
                    r == Failure("query execution failed: " + LokiErrorMessage(w.decodeSeries(x.value.body).value.error)))
    ensures var p := PlanQuery(args, env, w);
            p.Success? && Execute(w, p.value, w.decodeSeries).Success? ==>
              var e, f := Execute(w, p.value, w.decodeSeries).value, ResolveConnection(args, env).format;
              && (|e.data.result| == 0 && f != "json" ==> r == Success(NoLogs))
              && (|e.data.result| > 0 && !IsSupported(f) ==>
                    r == Failure("failed to format results: " + UnsupportedFormat(f)))
              && (|e.data.result| == 0 || IsSupported(f) ==>
                    r == Success(FormatSeries(e, f, w.serializeSeries, w.codec).value))
  {
    match PlanQuery(args, env, w)
    case Failure(e) => Failure(e)
    case Success(req) => RespondQuery(w, req, ResolveConnection(args, env).format)
  }

  /** What `HandleLokiLabelNames` sends. */
  function PlanLabels(args: Args, env: Env, w: World): (r: Result<Request>)
    ensures ResolveWindow(args, w.clock).Failure? ==> r == Failure(ResolveWindow(args, w.clock).error)
    ensures var c := ResolveConnection(args, env);
            ResolveWindow(args, w.clock).Success? && w.parseUrl(c.url).Failure? ==>
              r == Failure("failed to build labels URL: " + w.parseUrl(c.url).error)
    ensures r.Success? <==> ResolveWindow(args, w.clock).Success? && w.parseUrl(ResolveConnection(args, env).url).Success?
    ensures r.Success? ==> var c, win := ResolveConnection(args, env), ResolveWindow(args, w.clock).value;
              && r.value.headers == Headers(w, c)
              && Success(r.value.url) == BuildLabelsUrl(w.parseUrl, c.url, win.start, win.end)
  {
    var p :- ResolveLabels(args, env, w.clock);
    var u :- Wrap("failed to build labels URL", BuildLabelsUrl(w.parseUrl, p.conn.url, p.window.start, p.window.end));
    Success(Request(u, Headers(w, p.conn)))
  }

  /** The part of `HandleLokiLabelNames` after the request is built. */
  function RespondLabels(w: World, req: Request, format: string): (r: Result<string>)
    ensures var x := w.exchange(req);
      && (x.Failure? ==> r == Failure("labels query execution failed: " + x.error))
      && (x.Success? && x.value.statusCode != StatusOK ==>
            r == Failure("labels query execution failed: " + HttpErrorMessage(x.value.statusCode, x.value.body)))
      && (x.Success? && x.value.statusCode == StatusOK && w.decodeList(x.value.body).Failure? ==>
            r == Failure("labels query execution failed: " + w.decodeList(x.value.body).error))
      && (x.Success? && x.value.statusCode == StatusOK && w.decodeList(x.value.body).Success? &&
          w.decodeList(x.value.body).value.status == "error" ==>
            r == Failure("labels query execution failed: " + LokiErrorMessage(w.decodeList(x.value.body).value.error)))
    ensures Execute(w, req, w.decodeList).Success? ==>
              var e := Execute(w, req, w.decodeList).value;
              && (|e.data| == 0 && format != "json" ==> r == Success("No labels found"))
              && (|e.data| > 0 && !IsSupported(format) ==>
                    r == Failure("failed to format results: " + UnsupportedFormat(format)))
              && (|e.data| == 0 || IsSupported(format) ==>
                    r == Success(FormatLabels(e, format, w.serializeList).value))
  {
    var env :- Wrap("labels query execution failed", Execute(w, req, w.decodeList));
    Wrap("failed to format results", FormatLabels(env, format, w.serializeList))
  }

  /** `HandleLokiLabelNames` from arguments to tool output. Failures are reported in
      the order the handler meets them: a bad start, a bad end, a base URL that
      does not parse, a transport error, a rejected status, an undecodable
      body, a Loki-reported error, and finally an unsupported format. */
  function HandleLabelNames(args: Args, env: Env, w: World): (r: Result<string>)
    ensures Given(args, "start") && ParseTime(w.clock, args["start"].s).Failure? ==>
              r == Failure("invalid start time: " + UnsupportedTimeFormat(args["start"].s))
    ensures !(Given(args, "start") && ParseTime(w.clock, args["start"].s).Failure?) &&
            Given(args, "end") && ParseTime(w.clock, args["end"].s).Failure? ==>
              r == Failure("invalid end time: " + UnsupportedTimeFormat(args["end"].s))
    ensures var u := w.parseUrl(ResolveConnection(args, env).url);
            ResolveWindow(args, w.clock).Success? && u.Failure? ==> r == Failure("failed to build labels URL: " + u.error)
    ensures var p := PlanLabels(args, env, w);
            p.Success? ==> var x := w.exchange(p.value);
              && (x.Failure? ==> r == Failure("labels query execution failed: " + x.error))
              && (x.Success? && x.value.statusCode != StatusOK ==>
                    r == Failure("labels query execution failed: " + HttpErrorMessage(x.value.statusCode, x.value.body)))
              && (x.Success? && x.value.statusCode == StatusOK && w.decodeList(x.value.body).Failure? ==>
                    r == Failure("labels query execution failed: " + w.decodeList(x.value.body).error))
              && (x.Success? && x.value.statusCode == StatusOK && w.decodeList(x.value.body).Success? &&
                  w.decodeList(x.value.body).value.status == "error" ==>
                    r == Failure("labels query execution failed: " + LokiErrorMessage(w.decodeList(x.value.body).value.error)))
    ensures var p := PlanLabels(args, env, w);
            p.Success? && Execute(w, p.value, w.decodeList).Success? ==>
              var e, f := Execute(w, p.value, w.decodeList).value, ResolveConnection(args, env).format;
              && (|e.data| == 0 && f != "json" ==> r == Success("No labels found"))
              && (|e.data| > 0 && !IsSupported(f) ==>
                    r == Failure("failed to format results: " + UnsupportedFormat(f)))
              && (|e.data| == 0 || IsSupported(f) ==> r == Success(FormatLabels(e, f, w.serializeList).value))
  {
    match PlanLabels(args, env, w)
    case Failure(e) => Failure(e)
    case Success(req) => RespondLabels(w, req, ResolveConnection(args, env).format)
  }

  /** What `HandleLokiLabelValues` sends. */
  function PlanLabelValues(args: Args, env: Env, w: World): (r: Result<Request>)
    requires "label" in args && args["label"].Str?
    ensures ResolveWindow(args, w.clock).Failure? ==> r == Failure(ResolveWindow(args, w.clock).error)
    ensures var c := ResolveConnection(args, env);
            ResolveWindow(args, w.clock).Success? && w.parseUrl(c.url).Failure? ==>
              r == Failure("failed to build label values URL: " + w.parseUrl(c.url).error)
    ensures r.Success? <==> ResolveWindow(args, w.clock).Success? && w.parseUrl(ResolveConnection(args, env).url).Success?
    ensures r.Success? ==> var c, win := ResolveConnection(args, env), ResolveWindow(args, w.clock).value;
              && r.value.headers == Headers(w, c)
              && Success(r.value.url)
                 == BuildLabelValuesUrl(w.parseUrl, w.pathEscape, c.url, args["label"].s, win.start, win.end)
  {
    var p :- ResolveLabelValues(args, env, w.clock);
    var u :- Wrap("failed to build label values URL",
                  BuildLabelValuesUrl(w.parseUrl, w.pathEscape, p.conn.url, p.labelName, p.window.start, p.window.end));
    Success(Request(u, Headers(w, p.conn)))
  }

  /** The part of `HandleLokiLabelValues` after the request is built. */
  function RespondLabelValues(w: World, req: Request, labelName: string, format: string): (r: Result<string>)
    ensures var x := w.exchange(req);
      && (x.Failure? ==> r == Failure("label values query execution failed: " + x.error))
      && (x.Success? && x.value.statusCode != StatusOK ==>
            r == Failure("label values query execution failed: " + HttpErrorMessage(x.value.statusCode, x.value.body)))
      && (x.Success? && x.value.statusCode == StatusOK && w.decodeList(x.value.body).Failure? ==>
            r == Failure("label values query execution failed: " + w.decodeList(x.value.body).error))
      && (x.Success? && x.value.statusCode == StatusOK && w.decodeList(x.value.body).Success? &&
          w.decodeList(x.value.body).value.status == "error" ==>
            r == Failure("label values query execution failed: " + LokiErrorMessage(w.decodeList(x.value.body).value.error)))
    ensures Execute(w, req, w.decodeList).Success? ==>
              var e := Execute(w, req, w.decodeList).value;
              && (|e.data| == 0 && format != "json" ==> r == Success("No values found for label '" + labelName + "'"))
              && (|e.data| > 0 && !IsSupported(format) ==>
                    r == Failure("failed to format results: " + UnsupportedFormat(format)))
              && (|e.data| == 0 || IsSupported(format) ==>
                    r == Success(FormatLabelValues(labelName, e, format, w.serializeList).value))
  {
    var env :- Wrap("label values query execution failed", Execute(w, req, w.decodeList));
    Wrap("failed to format results", FormatLabelValues(labelName, env, format, w.serializeList))
  }

  /** `HandleLokiLabelValues` from arguments to tool output. Failures are reported in
      the order the handler meets them: a bad start, a bad end, a base URL that
      does not parse, a transport error, a rejected status, an undecodable
      body, a Loki-reported error, and finally an unsupported format. */
  function HandleLabelValues(args: Args, env: Env, w: World): (r: Result<string>)
    requires "label" in args && args["label"].Str?
    ensures Given(args, "start") && ParseTime(w.clock, args["start"].s).Failure? ==>
              r == Failure("invalid start time: " + UnsupportedTimeFormat(args["start"].s))
    ensures !(Given(args, "start") && ParseTime(w.clock, args["start"].s).Failure?) &&
            Given(args, "end") && ParseTime(w.clock, args["end"].s).Failure? ==>
              r == Failure("invalid end time: " + UnsupportedTimeFormat(args["end"].s))
    ensures var u := w.parseUrl(ResolveConnection(args, env).url);
            ResolveWindow(args, w.clock).Success? && u.Failure? ==>
              r == Failure("failed to build label values URL: " + u.error)
    ensures var p := PlanLabelValues(args, env, w);
            p.Success? ==> var x := w.exchange(p.value);
              && (x.Failure? ==> r == Failure("label values query execution failed: " + x.error))
              && (x.Success? && x.value.statusCode != StatusOK ==>
                    r == Failure("label values query execution failed: " + HttpErrorMessage(x.value.statusCode, x.value.body)))
              && (x.Success? && x.value.statusCode == StatusOK && w.decodeList(x.value.body).Failure? ==>
                    r == Failure("label values query execution failed: " + w.decodeList(x.value.body).error))
              && (x.Success? && x.value.statusCode == StatusOK && w.decodeList(x.value.body).Success? &&
                  w.decodeList(x.value.body).value.status == "error" ==>
                    r == Failure("label values query execution failed: " + LokiErrorMessage(w.decodeList(x.value.body).value.error)))
    ensures var p, l := PlanLabelValues(args, env, w), args["label"].s;
            p.Success? && Execute(w, p.value, w.decodeList).Success? ==>
              var e, f := Execute(w, p.value, w.decodeList).value, ResolveConnection(args, env).format;
              && (|e.data| == 0 && f != "json" ==> r == Success("No values found for label '" + l + "'"))
              && (|e.data| > 0 && !IsSupported(f) ==>
                    r == Failure("failed to format results: " + UnsupportedFormat(f)))
              && (|e.data| == 0 || IsSupported(f) ==>
                    r == Success(FormatLabelValues(l, e, f, w.serializeList).value))
  {
    match PlanLabelValues(args, env, w)
    case Failure(e) => Failure(e)
    case Success(req) => RespondLabelValues(w, req, args["label"].s, ResolveConnection(args, env).format)
  }

  /** The headers a token argument leads to: exactly `Bearer <token>`, and
      the organization header of the resolved organization. */
  predicate BearerFromArguments(hs: seq<Header>, args: Args, env: Env)
    requires Given(args, "token")
  {
    && HeaderValues(hs, AuthorizationHeader) == ["Bearer " + args["token"].s]
    && HeaderValues(hs, OrgIdHeader) ==
         (if Given(args, "org") then [args["org"].s] else if env.orgId != "" then [env.orgId] else [])
  }

  /** A bearer token given as an argument is what authenticates each of the
      three tools' requests, whatever basic credentials the arguments or the
      environment hold; the organization header follows the resolved
      organization alone. */
  lemma TokenArgumentAuthenticates(args: Args, env: Env, w: World)
    requires Given(args, "token")
    ensures "query" in args && args["query"].Str? && PlanQuery(args, env, w).Success? ==>
              BearerFromArguments(PlanQuery(args, env, w).value.headers, args, env)
    ensures PlanLabels(args, env, w).Success? ==> BearerFromArguments(PlanLabels(args, env, w).value.headers, args, env)
    ensures "label" in args && args["label"].Str? && PlanLabelValues(args, env, w).Success? ==>
              BearerFromArguments(PlanLabelValues(args, env, w).value.headers, args, env)
  {
  }

  /** An accepted answer with no streams ends the query successfully with the
      "nothing found" text, whatever the format argument says. */
  lemma EmptyQueryResultAnyFormat(w: World, req: Request, format: string)
    requires Execute(w, req, w.decodeSeries).Success?
    requires Execute(w, req, w.decodeSeries).value.data.result == []
    requires format != "json"
    ensures RespondQuery(w, req, format) == Success(NoLogs)
  {
  }
}

=== FILE: params.dfy ===
/** Parameter resolution at the head of the three `Handle*` functions: each
    field is taken from a non-empty string argument, else from the
    environment, else from a static default. The environment is passed in as
    a record instead of being read from the process. */
module Params {
  import opened Base
  import opened TimeParse

  /** A tool argument as it arrives in the untyped argument map: JSON strings
      are Go `string`s, JSON numbers are `float64`s, anything else is neither. */
  datatype Arg = Str(s: string) | Num(x: real) | Other

  type Args = map<string, Arg>

  /** The values of LOKI_URL, LOKI_ORG_ID, LOKI_USERNAME, LOKI_PASSWORD and
      LOKI_TOKEN; an unset variable reads as "". */
  datatype Env = Env(lokiUrl: string, orgId: string, username: string, password: string, token: string)

  const DefaultLokiUrl := "http://localhost:3100"
  const DefaultLimit := 100
  const DefaultFormat := "raw"
  const HourInSeconds := 3600

  /** `args[key].(string)` succeeds and is not "". */
  predicate Given(args: Args, key: string)
  {
    key in args && args[key].Str? && args[key].s != ""
  }

  function StringOr(args: Args, key: string, fallback: string): string
  {
    if Given(args, key) then args[key].s else fallback
  }

  /** Where to send the request, with which credentials, and how to render the answer. */
  datatype Connection = Connection(url: string, username: string, password: string, token: string,
                                   orgId: string, format: string)

  function ResolveConnection(args: Args, env: Env): (c: Connection)
    ensures c.url != "" && c.format != ""
    ensures c.url == (if Given(args, "url") then args["url"].s
                      else if env.lokiUrl != "" then env.lokiUrl else DefaultLokiUrl)
    ensures c.username == (if Given(args, "username") then args["username"].s else env.username)
    ensures c.password == (if Given(args, "password") then args["password"].s else env.password)
    ensures c.token == (if Given(args, "token") then args["token"].s else env.token)
    ensures c.orgId == (if Given(args, "org") then args["org"].s else env.orgId)
    ensures c.format == (if Given(args, "format") then args["format"].s else DefaultFormat)
  {
    Connection(
      StringOr(args, "url", if env.lokiUrl != "" then env.lokiUrl else DefaultLokiUrl),
      StringOr(args, "username", env.username),
      StringOr(args, "password", env.password),
      StringOr(args, "token", env.token),
      StringOr(args, "org", env.orgId),
      StringOr(args, "format", DefaultFormat))
  }

  /** An argument that is given decides its field whatever the environment holds. */
  lemma ArgumentsOverrideEnvironment(args: Args, e1: Env, e2: Env)
    ensures var c1, c2 := ResolveConnection(args, e1), ResolveConnection(args, e2);
      && (Given(args, "url") ==> c1.url == c2.url)
      && (Given(args, "username") ==> c1.username == c2.username)
      && (Given(args, "password") ==> c1.password == c2.password)
      && (Given(args, "token") ==> c1.token == c2.token)
      && (Given(args, "org") ==> c1.orgId == c2.orgId)
      && c1.format == c2.format
  {
  }

  /** Empty-string arguments are the same as absent ones, for the connection,
      the time window and the limit alike. */
  lemma EmptyStringIsAbsent(args: Args, key: string, env: Env, c: Clock)
    requires key in args && args[key] == Str("")
    ensures ResolveConnection(args, env) == ResolveConnection(args - {key}, env)
    ensures ResolveWindow(args, c) == ResolveWindow(args - {key}, c)
    ensures ResolveLimit(args) == ResolveLimit(args - {key})
  {
    assert forall k :: Given(args, k) <==> Given(args - {key}, k);
    assert forall k :: Given(args, k) ==> args[k] == (args - {key})[k];
  }

  // ------------------------------------------------------------------- limit

  /** Go's `int(f)` conversion of a float: the fraction is discarded. */
  function TruncateTowardZero(x: real): (r: int)
    ensures 0.0 <= x ==> 0 <= r && r as real <= x < r as real + 1.0
    ensures x < 0.0 ==> r <= 0 && r as real - 1.0 < x <= r as real
  {
    if x >= 0.0 then x.Floor else -((-x).Floor)
  }

  function ResolveLimit(args: Args): (limit: int)
    ensures "limit" in args && args["limit"].Num? ==> limit == TruncateTowardZero(args["limit"].x)
    ensures !("limit" in args && args["limit"].Num?) ==> limit == DefaultLimit
  {
    if "limit" in args && args["limit"].Num? then TruncateTowardZero(args["limit"].x) else DefaultLimit
  }

  // ------------------------------------------------------------ time window

  /** Query window in Unix seconds. */
  datatype Window = Window(start: int, end: int)

  /** One bound of the window: parsed when given, else the default. */
  function ResolveBound(args: Args, key: string, c: Clock, default: int): (r: Result<int>)
    ensures r.Failure? ==> Given(args, key) && r.error == "invalid " + key + " time: " + UnsupportedTimeFormat(args[key].s)
    ensures Given(args, key) && ParseTime(c, args[key].s).Failure? ==>
              r == Failure("invalid " + key + " time: " + UnsupportedTimeFormat(args[key].s))
    ensures !Given(args, key) ==> r == Success(default)
    ensures Given(args, key) && ParseTime(c, args[key].s).Success? ==>
              r == Success(UnixSeconds(ParseTime(c, args[key].s).value))
  {
    if Given(args, key) then
      match ParseTime(c, args[key].s)
      case Success(t) => Success(UnixSeconds(t))
      case Failure(e) => Failure("invalid " + key + " time: " + e)
    else Success(default)
  }

  lemma ShiftSeconds(t: int, k: int)
    ensures UnixSeconds(t + k * NanosPerSecond) == UnixSeconds(t) + k
  {
  }

  function ResolveWindow(args: Args, c: Clock): (r: Result<Window>)
    ensures Given(args, "start") && ParseTime(c, args["start"].s).Failure? ==>
              r == Failure("invalid start time: " + UnsupportedTimeFormat(args["start"].s))
    ensures !(Given(args, "start") && ParseTime(c, args["start"].s).Failure?) &&
            Given(args, "end") && ParseTime(c, args["end"].s).Failure? ==>
              r == Failure("invalid end time: " + UnsupportedTimeFormat(args["end"].s))
    ensures r.Success? <==> (Given(args, "start") ==> ParseTime(c, args["start"].s).Success?) &&
                            (Given(args, "end") ==> ParseTime(c, args["end"].s).Success?)
    ensures r.Success? ==>
              && r.value.start == (if Given(args, "start") then UnixSeconds(ParseTime(c, args["start"].s).value)
                                   else UnixSeconds(c.now) - HourInSeconds)
              && r.value.end == (if Given(args, "end") then UnixSeconds(ParseTime(c, args["end"].s).value)
                                 else UnixSeconds(c.now))
  {
    ShiftSeconds(c.now, -HourInSeconds);
    assert "invalid " + "start" + " time: " == "invalid start time: ";
    assert "invalid " + "end" + " time: " == "invalid end time: ";
    match ResolveBound(args, "start", c, UnixSeconds(c.now - NanosPerHour))
    case Failure(e) => Failure(e)
    case Success(start) =>
      match ResolveBound(args, "end", c, UnixSeconds(c.now))
      case Failure(e) => Failure(e)
      case Success(end) => Success(Window(start, end))
  }

  // ------------------------------------------------------- per-tool requests

  datatype QueryParams = QueryParams(conn: Connection, query: string, window: Window, limit: int)

  datatype LabelParams = LabelParams(conn: Connection, window: Window)

  datatype LabelValueParams = LabelValueParams(conn: Connection, labelName: string, window: Window)

  /** Parameters of `HandleLokiQuery`; the query must be a string (the Go code
      asserts its type without checking). */
  function ResolveQuery(args: Args, env: Env, c: Clock): (r: Result<QueryParams>)
    requires "query" in args && args["query"].Str?
    ensures r.Success? <==> ResolveWindow(args, c).Success?
    ensures r.Failure? ==> r.error == ResolveWindow(args, c).error
    ensures r.Success? ==>
              r.value == QueryParams(ResolveConnection(args, env), args["query"].s,
                                     ResolveWindow(args, c).value, ResolveLimit(args))
  {
    var w :- ResolveWindow(args, c);
    Success(QueryParams(ResolveConnection(args, env), args["query"].s, w, ResolveLimit(args)))
  }

  /** Parameters of `HandleLokiLabelNames`. */
  function ResolveLabels(args: Args, env: Env, c: Clock): (r: Result<LabelParams>)
    ensures r.Success? <==> ResolveWindow(args, c).Success?
    ensures r.Failure? ==> r.error == ResolveWindow(args, c).error
    ensures r.Success? ==> r.value == LabelParams(ResolveConnection(args, env), ResolveWindow(args, c).value)
  {
    var w :- ResolveWindow(args, c);
    Success(LabelParams(ResolveConnection(args, env), w))
  }

  /** Parameters of `HandleLokiLabelValues`; the label must be a string. */
  function ResolveLabelValues(args: Args, env: Env, c: Clock): (r: Result<LabelValueParams>)
    requires "label" in args && args["label"].Str?
    ensures r.Success? <==> ResolveWindow(args, c).Success?
    ensures r.Failure? ==> r.error == ResolveWindow(args, c).error
    ensures r.Success? ==>
              r.value == LabelValueParams(ResolveConnection(args, env), args["label"].s, ResolveWindow(args, c).value)
  {
    var w :- ResolveWindow(args, c);
    Success(LabelValueParams(ResolveConnection(args, env), args["label"].s, w))
  }
}

=== FILE: responses.dfy ===
/** The decoded backend envelopes (`LokiResult`, `LokiLabelsResult`,
    `LokiLabelValuesResult`) as one datatype generic in its data. */
module Responses {

  /** `{status, data, error}`; `P` is `SeriesData` for range queries and
      `seq<string>` for label names and label values. */
  datatype Envelope<P> = Envelope(status: string, data: P, error: string)

  /** `LokiEntry`. Go keeps `stream` in a map whose iteration order is
      unspecified; here it is the sequence of (label, value) pairs in the
      order one `range` over that map visits them, which may be any order. */
  datatype Entry = Entry(stream: seq<(string, string)>, values: seq<seq<string>>)

  /** `LokiData` */
  datatype SeriesData = SeriesData(resultType: string, result: seq<Entry>)

  /** The pairs of `stream` have distinct label names, as the keys of a map do. */
  predicate DistinctKeys(stream: seq<(string, string)>)
  {
    forall i, j :: 0 <= i < j < |stream| ==> stream[i].0 != stream[j].0
  }

  /** The label map an iteration sequence visits. */
  function StreamMap(stream: seq<(string, string)>): map<string, string>
  {
    if stream == [] then map[] else StreamMap(stream[1..])[stream[0].0 := stream[0].1]
  }
}

=== FILE: series.dfy ===
/** `formatLokiResults`: rendering of a range-query (series) envelope. */
module SeriesFormat {
  import opened Base
  import opened Text
  import opened Responses
  import opened Format

  /** `strconv.ParseFloat(s, 64)` succeeds (`isNumber`), and the rendering of
      such a string as `time.Unix(0, int64(f)).Format(time.RFC3339)`, i.e. as
      nanoseconds since the epoch (`render`). Both are opaque. */
  datatype TsCodec = TsCodec(isNumber: string -> bool, render: string -> string)

  const NoLogs := "No logs found matching the query"

  /** A timestamp that does not parse as a number is kept verbatim. */
  function Timestamp(codec: TsCodec, s: string): string
  {
    if codec.isNumber(s) then codec.render(s) else s
  }

  /** `"<k>=<v>"` for each label, in iteration order. */
  function LabelParts(stream: seq<(string, string)>): (parts: seq<string>)
    ensures |parts| == |stream|
    ensures forall i :: 0 <= i < |stream| ==> parts[i] == stream[i].0 + "=" + stream[i].1
  {
    seq(|stream|, i requires 0 <= i < |stream| => stream[i].0 + "=" + stream[i].1)
  }

  /** Raw mode's `"{k=v,...} "`, omitted for a stream without labels. */
  function RawLabelBlock(stream: seq<(string, string)>): (block: string)
    ensures block == "" <==> |stream| == 0
    ensures block != "" ==> |block| >= 3 && block[0] == '{' && block[|block| - 2..] == "} "
    ensures block != "" ==> block[1..|block| - 2] == Join(LabelParts(stream), ",")
    ensures forall i :: 0 <= i < |stream| ==> Contains(block, stream[i].0 + "=" + stream[i].1)
  {
    if |stream| == 0 then ""
    else
      BlockShowsParts("{", LabelParts(stream), ",", "} ");
      "{" + Join(LabelParts(stream), ",") + "} "
  }

  /** Text mode's `"(k=v, ...)"`, omitted for a stream without labels. */
  function TextLabelBlock(stream: seq<(string, string)>): (block: string)
    ensures block == "" <==> |stream| == 0
    ensures block != "" ==> |block| >= 2 && block[0] == '(' && block[|block| - 1] == ')'
    ensures block != "" ==> block[1..|block| - 1] == Join(LabelParts(stream), ", ")
    ensures forall i :: 0 <= i < |stream| ==> Contains(block, stream[i].0 + "=" + stream[i].1)
  {
    if |stream| == 0 then ""
    else
      BlockShowsParts("(", LabelParts(stream), ", ", ")");
      "(" + Join(LabelParts(stream), ", ") + ")"
  }

  /** A delimited, joined block shows each of its parts. */
  lemma BlockShowsParts(open: string, parts: seq<string>, sep: string, close: string)
    ensures forall i :: 0 <= i < |parts| ==> Contains(open + Join(parts, sep) + close, parts[i])
  {
    forall i | 0 <= i < |parts|
      ensures Contains(open + Join(parts, sep) + close, parts[i])
    {
      JoinContainsParts(parts, sep, i);
      ContainsPrepend(open, Join(parts, sep), parts[i]);
      ContainsExtend(open + Join(parts, sep), parts[i], close);
    }
  }

  // ------------------------------------------------------------------- raw

  /** The inner loop of raw mode for one entry. */
  function RawValueLines(codec: TsCodec, labels: string, values: seq<seq<string>>): string
  {
    if values == [] then ""
    else
      (if |values[0]| >= 2 then Timestamp(codec, values[0][0]) + " " + labels + values[0][1] + "\n" else "")
      + RawValueLines(codec, labels, values[1..])
  }

  /** The outer loop of raw mode. */
  function RawEntries(codec: TsCodec, entries: seq<Entry>): string
  {
    if entries == [] then ""
    else RawValueLines(codec, RawLabelBlock(entries[0].stream), entries[0].values) + RawEntries(codec, entries[1..])
  }

  /** The value pairs that produce output: those with at least two elements, in order. */
  function LongPairs(values: seq<seq<string>>): (r: seq<seq<string>>)
    ensures forall i :: 0 <= i < |r| ==> |r[i]| >= 2
    ensures forall v :: v in r <==> v in values && |v| >= 2
    ensures forall v :: multiset(r)[v] == (if |v| >= 2 then multiset(values)[v] else 0)
    ensures |r| <= |values|
  {
    if values == [] then []
    else
      assert values == [values[0]] + values[1..];
      (if |values[0]| >= 2 then [values[0]] else []) + LongPairs(values[1..])
  }

  lemma LongPairsCons(h: seq<string>, t: seq<seq<string>>)
    ensures LongPairs([h] + t) == (if |h| >= 2 then [h] else []) + LongPairs(t)
  {
    assert ([h] + t)[1..] == t;
  }

  /** Filtering keeps the order: the long pairs of a concatenation are the
      long pairs of the first part followed by those of the second. */
  lemma SplitHead<T>(a: seq<T>, b: seq<T>, x: seq<T>, y: seq<T>)
    requires a != []
    ensures a + b == [a[0]] + (a[1..] + b) && a == [a[0]] + a[1..]
    ensures x + (y + b) == (x + y) + b
  {
  }

  lemma {:induction false} LongPairsAppend(a: seq<seq<string>>, b: seq<seq<string>>)
    ensures LongPairs(a + b) == LongPairs(a) + LongPairs(b)
  {
    if a == [] {
      assert a + b == b;
    } else {
      var h, t := a[0], a[1..];
      var x := if |h| >= 2 then [h] else [];
      LongPairsAppend(t, b);
      SplitHead(a, b, x, LongPairs(t));
      SplitHead(a, LongPairs(b), x, LongPairs(t));
      LongPairsCons(h, t + b);
      LongPairsCons(h, t);
    }
  }

  /** The raw line of one value pair, without its newline. */
  function RawLine(codec: TsCodec, labels: string, v: seq<string>): string
    requires |v| >= 2
  {
    Timestamp(codec, v[0]) + " " + labels + v[1]
  }

  /** The lines raw mode emits for one entry: one per long pair. */
  function EntryRawLines(codec: TsCodec, e: Entry): (ls: seq<string>)
    ensures |ls| == |LongPairs(e.values)|
  {
    PairLines(codec, RawLabelBlock(e.stream), LongPairs(e.values))
  }

  /** All lines raw mode emits, entry after entry. */
  function RawLines(codec: TsCodec, entries: seq<Entry>): seq<string>
  {
    if entries == [] then [] else EntryRawLines(codec, entries[0]) + RawLines(codec, entries[1..])
  }

  /** The raw lines of a sequence of long pairs. */
  function PairLines(codec: TsCodec, labels: string, ps: seq<seq<string>>): (ls: seq<string>)
    requires forall i :: 0 <= i < |ps| ==> |ps[i]| >= 2
    ensures |ls| == |ps|
    ensures forall i :: 0 <= i < |ps| ==> ls[i] == RawLine(codec, labels, ps[i])
  {
    if ps == [] then [] else [RawLine(codec, labels, ps[0])] + PairLines(codec, labels, ps[1..])
  }

  lemma PairLinesCons(codec: TsCodec, labels: string, v: seq<string>, ps: seq<seq<string>>)
    requires |v| >= 2 && forall i :: 0 <= i < |ps| ==> |ps[i]| >= 2
    ensures PairLines(codec, labels, [v] + ps) == [RawLine(codec, labels, v)] + PairLines(codec, labels, ps)
  {
  }

  lemma ConcatTerminatedCons(x: string, ls: seq<string>)
    ensures ConcatTerminated([x] + ls) == x + "\n" + ConcatTerminated(ls)
  {
    assert ([x] + ls)[1..] == ls;
  }

  lemma {:induction false} RawValueLinesShape(codec: TsCodec, labels: string, values: seq<seq<string>>)
    ensures RawValueLines(codec, labels, values) == ConcatTerminated(PairLines(codec, labels, LongPairs(values)))
  {
    if values != [] {
      RawValueLinesShape(codec, labels, values[1..]);
      var rest := LongPairs(values[1..]);
      if |values[0]| >= 2 {
        assert LongPairs(values) == [values[0]] + rest;
        PairLinesCons(codec, labels, values[0], rest);
        ConcatTerminatedCons(RawLine(codec, labels, values[0]), PairLines(codec, labels, rest));
      } else {
        assert LongPairs(values) == rest;
      }
    }
  }

  /** Raw output is exactly the newline-terminated lines of `RawLines`: one
      line per value pair with at least two elements, shorter pairs skipped,
      timestamps rendered when numeric and kept verbatim otherwise. */
  lemma {:induction false} RawEntriesShape(codec: TsCodec, entries: seq<Entry>)
    ensures RawEntries(codec, entries) == ConcatTerminated(RawLines(codec, entries))
  {
    if entries != [] {
      RawEntriesShape(codec, entries[1..]);
      RawValueLinesShape(codec, RawLabelBlock(entries[0].stream), entries[0].values);
      ConcatTerminatedAppend(EntryRawLines(codec, entries[0]), RawLines(codec, entries[1..]));
    }
  }

  // ------------------------------------------------------------------ text

  /** The inner loop of text mode for one entry. */
  function TextValueLines(codec: TsCodec, values: seq<seq<string>>): string
  {
    if values == [] then ""
    else
      (if |values[0]| >= 2 then "[" + Timestamp(codec, values[0][0]) + "] " + values[0][1] + "\n" else "")
      + TextValueLines(codec, values[1..])
  }

  /** The text line of one value pair, without its newline. */
  function TextLine(codec: TsCodec, v: seq<string>): string
    requires |v| >= 2
  {
    "[" + Timestamp(codec, v[0]) + "] " + v[1]
  }

  /** The text lines of a sequence of long pairs. */
  function TextPairLines(codec: TsCodec, ps: seq<seq<string>>): (ls: seq<string>)
    requires forall i :: 0 <= i < |ps| ==> |ps[i]| >= 2
    ensures |ls| == |ps|
    ensures forall i :: 0 <= i < |ps| ==> ls[i] == TextLine(codec, ps[i])
  {
    if ps == [] then [] else [TextLine(codec, ps[0])] + TextPairLines(codec, ps[1..])
  }

  /** One entry's text lines: `[ts] line` per pair with at least two
      elements, in order, each ended by a newline. */
  lemma {:induction false} TextValueLinesShape(codec: TsCodec, values: seq<seq<string>>)
    ensures TextValueLines(codec, values) == ConcatTerminated(TextPairLines(codec, LongPairs(values)))
  {
    if values != [] {
      TextValueLinesShape(codec, values[1..]);
      var rest := LongPairs(values[1..]);
      if |values[0]| >= 2 {
        assert LongPairs(values) == [values[0]] + rest;
        assert TextPairLines(codec, [values[0]] + rest) == [TextLine(codec, values[0])] + TextPairLines(codec, rest) by {
          assert ([values[0]] + rest)[1..] == rest;
        }
        ConcatTerminatedCons(TextLine(codec, values[0]), TextPairLines(codec, rest));
      } else {
        assert LongPairs(values) == rest;
      }
    }
  }

  /** The outer loop of text mode, numbering entries from `n`. */
  function TextEntries(codec: TsCodec, entries: seq<Entry>, n: nat): string
  {
    if entries == [] then ""
    else
      "Stream " + TextLabelBlock(entries[0].stream) + " " + NatToDecimal(n) + ":\n"
      + TextValueLines(codec, entries[0].values) + "\n"
      + TextEntries(codec, entries[1..], n + 1)
  }

  /** The block text mode emits for the entry numbered `n`. */
  function TextBlock(codec: TsCodec, e: Entry, n: nat): string
  {
    "Stream " + TextLabelBlock(e.stream) + " " + NatToDecimal(n) + ":\n" + TextValueLines(codec, e.values) + "\n"
  }

  /** The blocks of text mode, one per entry, numbered from `n`. */
  function TextBlocks(codec: TsCodec, entries: seq<Entry>, n: nat): (bs: seq<string>)
    ensures |bs| == |entries|
    ensures forall i :: 0 <= i < |entries| ==> bs[i] == TextBlock(codec, entries[i], n + i)
  {
    if entries == [] then [] else [TextBlock(codec, entries[0], n)] + TextBlocks(codec, entries[1..], n + 1)
  }

  /** Entry `i` (from 0) is rendered as the block numbered `n + i`. */
  lemma {:induction false} TextEntriesNumbered(codec: TsCodec, entries: seq<Entry>, n: nat)
    ensures TextEntries(codec, entries, n) == Concat(TextBlocks(codec, entries, n))
  {
    if entries != [] {
      TextEntriesNumbered(codec, entries[1..], n + 1);
      var bs := TextBlocks(codec, entries, n);
      assert bs[1..] == TextBlocks(codec, entries[1..], n + 1);
    }
  }

  function StreamsHeadline(count: int): string
  {
    "Found " + IntToDecimal(count) + " streams:"
  }

  // ---------------------------------------------------------------- dispatch

  /** `formatLokiResults` */
  function FormatSeries(result: Envelope<SeriesData>, format: string, serialize: Envelope<SeriesData> -> string,
                        codec: TsCodec): (r: Result<string>)
    ensures |result.data.result| == 0 ==>
              r == Success(if format == "json" then "{\"message\": \"" + NoLogs + "\"}" else NoLogs)
    ensures |result.data.result| > 0 && !IsSupported(format) ==> r == Failure(UnsupportedFormat(format))
    ensures |result.data.result| > 0 && format == "json" ==> r == Success(serialize(result))
    ensures |result.data.result| > 0 && format == "raw" ==>
              r == Success(ConcatTerminated(RawLines(codec, result.data.result)))
    ensures var es := result.data.result;
            |es| > 0 && format == "text" ==>
              r == Success(StreamsHeadline(|es|) + "\n\n" + Concat(TextBlocks(codec, es, 1)))
  {
    var es := result.data.result;
    if |es| == 0 then Success(if format == "json" then "{\"message\": \"" + NoLogs + "\"}" else NoLogs)
    else if format == "json" then Success(serialize(result))
    else if format == "raw" then
      RawEntriesShape(codec, es);
      Success(RawEntries(codec, es))
    else if format == "text" then
      TextEntriesNumbered(codec, es, 1);
      Success(StreamsHeadline(|es|) + "\n\n" + TextEntries(codec, es, 1))
    else Failure(UnsupportedFormat(format))
  }

  // ------------------------------------------------------------- label maps

  lemma DistinctTail(stream: seq<(string, string)>)
    requires stream != [] && DistinctKeys(stream)
    ensures DistinctKeys(stream[1..])
  {
    var rest := stream[1..];
    forall i, j | 0 <= i < j < |rest|
      ensures rest[i].0 != rest[j].0
    {
      assert rest[i] == stream[i + 1] && rest[j] == stream[j + 1];
    }
  }

  /** The keys of the map are the labels the iteration visits. */
  lemma {:induction false} StreamMapKeys(stream: seq<(string, string)>)
    ensures forall k :: k in StreamMap(stream) <==> exists i :: 0 <= i < |stream| && stream[i].0 == k
  {
    if stream != [] {
      var rest := stream[1..];
      StreamMapKeys(rest);
      forall k | k in StreamMap(stream)
        ensures exists i :: 0 <= i < |stream| && stream[i].0 == k
      {
        if k != stream[0].0 {
          assert k in StreamMap(rest);
          var j :| 0 <= j < |rest| && rest[j].0 == k;
          assert stream[j + 1].0 == k;
        } else {
          assert stream[0].0 == k;
        }
      }
      forall k | exists i :: 0 <= i < |stream| && stream[i].0 == k
        ensures k in StreamMap(stream)
      {
        var i :| 0 <= i < |stream| && stream[i].0 == k;
        if i > 0 {
          assert rest[i - 1].0 == k;
        }
      }
    }
  }

  lemma HeadNotInTail(stream: seq<(string, string)>)
    requires stream != [] && DistinctKeys(stream)
    ensures stream[0].0 !in StreamMap(stream[1..])
  {
    var rest := stream[1..];
    StreamMapKeys(rest);
    forall i | 0 <= i < |rest|
      ensures rest[i].0 != stream[0].0
    {
      assert rest[i] == stream[i + 1];
    }
  }

  /** With distinct labels the map has one key per visited pair. */
  lemma {:induction false} StreamMapSize(stream: seq<(string, string)>)
    requires DistinctKeys(stream)
    ensures |StreamMap(stream)| == |stream|
  {
    if stream != [] {
      DistinctTail(stream);
      StreamMapSize(stream[1..]);
      HeadNotInTail(stream);
    }
  }

  lemma LabelPartsCons(stream: seq<(string, string)>)
    requires stream != []
    ensures LabelParts(stream) == [stream[0].0 + "=" + stream[0].1] + LabelParts(stream[1..])
  {
  }

  /** Every part is `"<k>=<v>"` for a label `k` of the map with value `v`. */
  lemma {:induction false} PartsComeFromMap(stream: seq<(string, string)>)
    requires DistinctKeys(stream)
    ensures forall p :: p in LabelParts(stream) ==>
              exists k :: k in StreamMap(stream) && p == k + "=" + StreamMap(stream)[k]
  {
    if stream != [] {
      var rest := stream[1..];
      DistinctTail(stream);
      PartsComeFromMap(rest);
      HeadNotInTail(stream);
      LabelPartsCons(stream);
      var m := StreamMap(stream);
      forall p | p in LabelParts(stream)
        ensures exists k :: k in m && p == k + "=" + m[k]
      {
        if p == stream[0].0 + "=" + stream[0].1 {
          assert stream[0].0 in m && m[stream[0].0] == stream[0].1;
        } else {
          assert p in LabelParts(rest);
          var k :| k in StreamMap(rest) && p == k + "=" + StreamMap(rest)[k];
          assert k in m && m[k] == StreamMap(rest)[k];
        }
      }
    }
  }

  /** Every label `k` of the map appears as the part `"<k>=<v>"`. */
  lemma {:induction false} MapShowsInParts(stream: seq<(string, string)>)
    requires DistinctKeys(stream)
    ensures forall k :: k in StreamMap(stream) ==> k + "=" + StreamMap(stream)[k] in LabelParts(stream)
  {
    if stream != [] {
      var rest := stream[1..];
      DistinctTail(stream);
      MapShowsInParts(rest);
      HeadNotInTail(stream);
      LabelPartsCons(stream);
      var m := StreamMap(stream);
      forall k | k in m
        ensures k + "=" + m[k] in LabelParts(stream)
      {
        if k != stream[0].0 {
          assert k in StreamMap(rest) && m[k] == StreamMap(rest)[k];
          assert k + "=" + m[k] in LabelParts(rest);
        }
      }
    }
  }

  /** However the map is iterated, the label block lists each label of the
      map exactly once, as `"<k>=<v>"`, and nothing else. */
  lemma LabelPartsDescribeMap(stream: seq<(string, string)>)
    requires DistinctKeys(stream)
    ensures |LabelParts(stream)| == |StreamMap(stream)|
    ensures forall k :: k in StreamMap(stream) ==> k + "=" + StreamMap(stream)[k] in LabelParts(stream)
    ensures forall p :: p in LabelParts(stream) ==>
              exists k :: k in StreamMap(stream) && p == k + "=" + StreamMap(stream)[k]
  {
    StreamMapSize(stream);
    MapShowsInParts(stream);
    PartsComeFromMap(stream);
  }

  /** With distinct labels, an iteration visits each entry of its map once
      and nothing else. */
  lemma {:induction false} VisitsEachEntryOnce(stream: seq<(string, string)>)
    requires DistinctKeys(stream)
    ensures forall pr :: multiset(stream)[pr] ==
              (if pr.0 in StreamMap(stream) && StreamMap(stream)[pr.0] == pr.1 then 1 else 0)
  {
    if stream != [] {
      var rest := stream[1..];
      DistinctTail(stream);
      VisitsEachEntryOnce(rest);
      HeadNotInTail(stream);
      assert stream == [stream[0]] + rest;
      forall pr
        ensures multiset(stream)[pr] ==
                (if pr.0 in StreamMap(stream) && StreamMap(stream)[pr.0] == pr.1 then 1 else 0)
      {
        assert multiset(stream)[pr] == multiset([stream[0]])[pr] + multiset(rest)[pr];
        if pr.0 == stream[0].0 {
          assert pr.0 !in StreamMap(rest);
        }
      }
    }
  }

  lemma LabelPartsAppend(a: seq<(string, string)>, b: seq<(string, string)>)
    ensures LabelParts(a + b) == LabelParts(a) + LabelParts(b)
  {
    assert forall i :: 0 <= i < |a + b| ==> (a + b)[i] == if i < |a| then a[i] else b[i - |a|];
  }

  /** Rearranging the visited pairs rearranges the rendered parts. */
  lemma {:induction false} PermutedParts(s1: seq<(string, string)>, s2: seq<(string, string)>)
    requires multiset(s1) == multiset(s2)
    ensures multiset(LabelParts(s1)) == multiset(LabelParts(s2))
    decreases |s1|
  {
    if s1 == [] {
      assert |s2| == |multiset(s2)| == 0;
    } else {
      var x := s1[0];
      assert x in multiset(s1);
      var j :| 0 <= j < |s2| && s2[j] == x;
      var before, after := s2[..j], s2[j + 1..];
      assert s2 == before + [x] + after;
      assert s1 == [x] + s1[1..];
      calc {
        multiset(s1[1..]);
        multiset(s1) - multiset{x};
        multiset(before) + multiset{x} + multiset(after) - multiset{x};
        multiset(before + after);
      }
      PermutedParts(s1[1..], before + after);
      LabelPartsAppend(before + [x], after);
      LabelPartsAppend(before, [x]);
      LabelPartsAppend(before, after);
      LabelPartsAppend([x], s1[1..]);
    }
  }

  /** Two iterations of the same label map render the same parts the same
      number of times, whatever order each visits the labels in. */
  lemma IterationOrderIrrelevant(s1: seq<(string, string)>, s2: seq<(string, string)>)
    requires DistinctKeys(s1) && DistinctKeys(s2) && StreamMap(s1) == StreamMap(s2)
    ensures |LabelParts(s1)| == |LabelParts(s2)|
    ensures forall p :: p in LabelParts(s1) <==> p in LabelParts(s2)
    ensures multiset(LabelParts(s1)) == multiset(LabelParts(s2))
  {
    LabelPartsDescribeMap(s1);
    LabelPartsDescribeMap(s2);
    VisitsEachEntryOnce(s1);
    VisitsEachEntryOnce(s2);
    assert forall pr :: multiset(s1)[pr] == multiset(s2)[pr];
    assert multiset(s1) == multiset(s2);
    PermutedParts(s1, s2);
  }
}

=== FILE: text.dfy ===
/** String helpers with the meaning of Go's `strings` package and `%d`,
    plus `Lines`, the reader's view of newline-terminated output. */
module Text {
  import opened Base

  /** `strings.HasPrefix` */
  predicate HasPrefix(s: string, p: string) {
    |p| <= |s| && s[..|p|] == p
  }

  /** `strings.HasSuffix` */
  predicate HasSuffix(s: string, t: string) {
    |t| <= |s| && s[|s| - |t|..] == t
  }

  /** `t` occurs in `s` starting at position `i`. */
  predicate OccursAt(s: string, t: string, i: int) {
    0 <= i && i + |t| <= |s| && s[i..i + |t|] == t
  }

  /** `strings.Contains`: `t` occurs somewhere in `s` (the empty string occurs everywhere). */
  predicate Contains(s: string, t: string) {
    exists i | 0 <= i <= |s| - |t| :: OccursAt(s, t, i)
  }

  lemma ContainsInfix(a: string, t: string, b: string)
    ensures Contains(a + t + b, t)
  {
    var s := a + t + b;
    assert s[|a|..|a| + |t|] == t;
    assert OccursAt(s, t, |a|);
  }

  lemma ContainsExtend(s: string, t: string, b: string)
    requires Contains(s, t)
    ensures Contains(s + b, t)
  {
    var i :| 0 <= i <= |s| - |t| && OccursAt(s, t, i);
    assert (s + b)[i..i + |t|] == t;
    assert OccursAt(s + b, t, i);
  }

  lemma SuffixOfAppend(a: string, t: string)
    ensures HasSuffix(a + t, t)
  {
    assert (a + t)[|a + t| - |t|..] == t;
  }

  // ---------------------------------------------------------------- decimal

  predicate IsDigit(c: char) {
    '0' <= c <= '9'
  }

  predicate AllDigits(s: string) {
    forall i :: 0 <= i < |s| ==> IsDigit(s[i])
  }

  function DigitChar(d: nat): (c: char)
    requires d < 10
    ensures IsDigit(c)
  {
    ('0' as int + d) as char
  }

  function DigitValue(c: char): nat
    requires IsDigit(c)
  {
    c as int - '0' as int
  }

  /** Decimal rendering of a natural number, most significant digit first, no leading zeros. */
  function NatToDecimal(n: nat): (s: string)
    ensures |s| > 0 && AllDigits(s)
    ensures |s| > 1 ==> s[0] != '0'
    decreases n
  {
    if n < 10 then [DigitChar(n)] else NatToDecimal(n / 10) + [DigitChar(n % 10)]
  }

  /** `fmt.Sprintf("%d", n)` */
  function IntToDecimal(n: int): string
  {
    if n < 0 then "-" + NatToDecimal(-n) else NatToDecimal(n)
  }

  /** Value of a digit string read most significant digit first. */
  function DigitsValue(s: string): nat
    requires AllDigits(s)
  {
    if s == [] then 0 else DigitsValue(s[..|s| - 1]) * 10 + DigitValue(s[|s| - 1])
  }

  /** Reads back an optionally negative decimal integer, rejecting anything else. */
  function ParseDecimal(s: string): Option<int>
  {
    if |s| > 1 && s[0] == '-' && AllDigits(s[1..]) then Some(-(DigitsValue(s[1..]) as int))
    else if |s| > 0 && AllDigits(s) then Some(DigitsValue(s))
    else None
  }

  lemma {:induction false} NatToDecimalValue(n: nat)
    ensures DigitsValue(NatToDecimal(n)) == n
    decreases n
  {
    if n >= 10 {
      NatToDecimalValue(n / 10);
      var s := NatToDecimal(n);
      assert s[..|s| - 1] == NatToDecimal(n / 10);
    }
  }

  /** `%d` loses nothing: the rendering reads back as the same integer. */
  lemma DecimalRoundTrip(n: int)
    ensures ParseDecimal(IntToDecimal(n)) == Some(n)
  {
    if n < 0 {
      NatToDecimalValue(-n);
      assert IntToDecimal(n)[1..] == NatToDecimal(-n);
    } else {
      NatToDecimalValue(n);
    }
  }

  /** Distinct integers have distinct renderings. */
  lemma DecimalInjective(a: int, b: int)
    requires IntToDecimal(a) == IntToDecimal(b)
    ensures a == b
  {
    DecimalRoundTrip(a);
    DecimalRoundTrip(b);
  }

  // ---------------------------------------------------------------- joining

  /** `strings.Join` */
  function Join(parts: seq<string>, sep: string): string
  {
    if |parts| == 0 then ""
    else if |parts| == 1 then parts[0]
    else parts[0] + sep + Join(parts[1..], sep)
  }

  lemma ContainsPrepend(a: string, s: string, t: string)
    requires Contains(s, t)
    ensures Contains(a + s, t)
  {
    var i :| 0 <= i <= |s| - |t| && OccursAt(s, t, i);
    assert (a + s)[|a| + i..|a| + i + |t|] == t;
    assert OccursAt(a + s, t, |a| + i);
  }

  /** Every part shows up in the joined string. */
  lemma {:induction false} JoinContainsParts(parts: seq<string>, sep: string, i: nat)
    requires i < |parts|
    ensures Contains(Join(parts, sep), parts[i])
  {
    if |parts| == 1 {
      ContainsInfix([], parts[0], []);
      assert [] + parts[0] + [] == parts[0];
    } else if i == 0 {
      ContainsInfix([], parts[0], sep + Join(parts[1..], sep));
      assert [] + parts[0] + (sep + Join(parts[1..], sep)) == Join(parts, sep);
    } else {
      JoinContainsParts(parts[1..], sep, i - 1);
      ContainsPrepend(parts[0] + sep, Join(parts[1..], sep), parts[i]);
    }
  }

  /** Concatenation of a sequence of strings, left to right. */
  function Concat(parts: seq<string>): string
  {
    if parts == [] then "" else parts[0] + Concat(parts[1..])
  }

  lemma {:induction false} ConcatAppend(a: seq<string>, b: seq<string>)
    ensures Concat(a + b) == Concat(a) + Concat(b)
  {
    if a != [] {
      ConcatAppend(a[1..], b);
      assert (a + b)[0] == a[0];
      assert (a + b)[1..] == a[1..] + b;
    } else {
      assert a + b == b;
    }
  }

  // ---------------------------------------------------------------- lines

  /** Position of the first occurrence of `c` in `s`, if any. */
  function IndexOf(s: string, c: char): (r: Option<nat>)
    ensures r.Some? ==> r.value < |s| && s[r.value] == c && c !in s[..r.value]
    ensures r.None? ==> c !in s
  {
    if s == [] then None
    else if s[0] == c then Some(0)
    else match IndexOf(s[1..], c)
      case None => None
      case Some(j) => assert s[..j + 1] == [s[0]] + s[1..][..j]; Some(j + 1)
  }

  /** The newline-terminated lines of `s`, without their terminators; an
      unterminated tail counts as a last line. */
  function Lines(s: string): seq<string>
    decreases |s|
  {
    if s == [] then []
    else match IndexOf(s, '\n')
      case None => [s]
      case Some(i) => [s[..i]] + Lines(s[i + 1..])
  }

  lemma LinesCons(a: string, rest: string)
    requires '\n' !in a
    ensures Lines(a + "\n" + rest) == [a] + Lines(rest)
  {
    var s := a + "\n" + rest;
    assert s[|a|] == '\n';
    assert s[..|a|] == a;
    var r := IndexOf(s, '\n');
    assert r.Some?;
    assert r.value == |a|;
    assert s[|a| + 1..] == rest;
  }

  /** Lines of a concatenation of newline-terminated lines are those lines. */
  lemma {:induction false} LinesOfTerminated(ls: seq<string>)
    requires forall i :: 0 <= i < |ls| ==> '\n' !in ls[i]
    ensures Lines(ConcatTerminated(ls)) == ls
  {
    if ls != [] {
      LinesCons(ls[0], ConcatTerminated(ls[1..]));
      LinesOfTerminated(ls[1..]);
    }
  }

  /** Every element followed by a newline, concatenated. */
  function ConcatTerminated(ls: seq<string>): string
  {
    if ls == [] then "" else ls[0] + "\n" + ConcatTerminated(ls[1..])
  }

  lemma {:induction false} ConcatTerminatedAppend(a: seq<string>, b: seq<string>)
    ensures ConcatTerminated(a + b) == ConcatTerminated(a) + ConcatTerminated(b)
  {
    if a != [] {
      ConcatTerminatedAppend(a[1..], b);
      assert (a + b)[0] == a[0];
      assert (a + b)[1..] == a[1..] + b;
    } else {
      assert a + b == b;
    }
  }

  lemma LinesOfBlankThen(body: string)
    ensures Lines("\n" + body) == [""] + Lines(body)
  {
    LinesCons("", body);
    assert "" + "\n" + body == "\n" + body;
  }


  /** A headline and a blank line in front of `body` add exactly those two lines. */
  lemma HeadlineSplit(headline: string, body: string)
    ensures headline + "\n\n" + body == headline + "\n" + ("\n" + body)
  {
  }

  lemma LinesAfterHeadline(headline: string, body: string)
    requires '\n' !in headline
    ensures Lines(headline + "\n\n" + body) == [headline, ""] + Lines(body)
  {
    LinesOfBlankThen(body);
    LinesCons(headline, "\n" + body);
    HeadlineSplit(headline, body);
  }
}

=== FILE: timeparse.dfy ===
/** `parseTime`: the order in which a time argument is tried against the
    keyword `now`, a relative duration and four absolute layouts.

    Instants are nanoseconds since the Unix epoch. The clock and Go's
    `time.ParseDuration` / `time.Parse` are opaque: they arrive as fields of a
    `Clock`, and only the dispatch order is modelled. */
module TimeParse {
  import opened Base

  datatype Clock = Clock(
    now: int,                                  // time.Now()
    parseDuration: string -> Option<int>,      // time.ParseDuration, in nanoseconds
    parseLayout: (string, string) -> Option<int>  // time.Parse(layout, value)
  )

  /** Go's `time.RFC3339` layout (section 5.6 `date-time` of RFC 3339). */
  const Rfc3339Layout := "2006-01-02T15:04:05Z07:00"

  /** The layouts tried after RFC 3339, in order. */
  const FallbackLayouts: seq<string> := ["2006-01-02T15:04:05", "2006-01-02 15:04:05", "2006-01-02"]

  /** Every absolute layout in the order `parseTime` tries them. */
  const AbsoluteLayouts: seq<string> := [Rfc3339Layout] + FallbackLayouts

  const NanosPerSecond := 1_000_000_000
  const NanosPerHour := 3600 * NanosPerSecond

  /** `time.Time.Unix()`: whole seconds, rounded towards the past. */
  function UnixSeconds(t: int): int
  {
    t / NanosPerSecond
  }

  /** The relative rule applies: a leading `-` and a duration that parses. */
  predicate IsRelative(c: Clock, s: string)
  {
    |s| > 0 && s[0] == '-' && c.parseDuration(s).Some?
  }

  /** The first layout of `layouts` that accepts `s`. */
  function FirstLayout(c: Clock, layouts: seq<string>, s: string): (r: Option<int>)
    ensures r.None? <==> forall i :: 0 <= i < |layouts| ==> c.parseLayout(layouts[i], s).None?
    ensures r.Some? ==> exists i :: 0 <= i < |layouts| && c.parseLayout(layouts[i], s) == r &&
                          forall j :: 0 <= j < i ==> c.parseLayout(layouts[j], s).None?
  {
    if layouts == [] then None
    else match c.parseLayout(layouts[0], s)
      case Some(t) => Some(t)
      case None =>
        var r := FirstLayout(c, layouts[1..], s);
        assert forall i :: 1 <= i < |layouts| ==> layouts[i] == layouts[1..][i - 1];
        r
  }

  function UnsupportedTimeFormat(s: string): string
  {
    "unsupported time format: " + s
  }

  /** `parseTime` */
  function ParseTime(c: Clock, s: string): (r: Result<int>)
    ensures s == "now" ==> r == Success(c.now)
    ensures s != "now" && IsRelative(c, s) ==> r == Success(c.now + c.parseDuration(s).value)
    ensures r.Failure? <==>
              s != "now" && !IsRelative(c, s) &&
              forall i :: 0 <= i < |AbsoluteLayouts| ==> c.parseLayout(AbsoluteLayouts[i], s).None?
    ensures r.Failure? ==> r.error == UnsupportedTimeFormat(s)
    ensures r.Success? && s != "now" && !IsRelative(c, s) ==>
              exists i :: 0 <= i < |AbsoluteLayouts| && c.parseLayout(AbsoluteLayouts[i], s) == Some(r.value) &&
                forall j :: 0 <= j < i ==> c.parseLayout(AbsoluteLayouts[j], s).None?
  {
    if s == "now" then Success(c.now)
    else if |s| > 0 && s[0] == '-' && c.parseDuration(s).Some? then Success(c.now + c.parseDuration(s).value)
    else match c.parseLayout(Rfc3339Layout, s)
      case Some(t) => assert AbsoluteLayouts[0] == Rfc3339Layout; Success(t)
      case None =>
        match FirstLayout(c, FallbackLayouts, s)
        case Some(t) =>
          var i :| 0 <= i < |FallbackLayouts| && c.parseLayout(FallbackLayouts[i], s) == Some(t) &&
                   forall j :: 0 <= j < i ==> c.parseLayout(FallbackLayouts[j], s).None?;
          assert AbsoluteLayouts[i + 1] == FallbackLayouts[i];
          Success(t)
        case None => Failure(UnsupportedTimeFormat(s))
  }

  // ------------------------------------------------------ reference definition

  /** What each rule of the resolution order yields on `s`, in order. */
  function Candidates(c: Clock, s: string): seq<Option<int>>
  {
    [ if s == "now" then Some(c.now) else None,
      if |s| > 0 && s[0] == '-' then
        (match c.parseDuration(s) case Some(d) => Some(c.now + d) case None => None)
      else None ]
    + seq(|AbsoluteLayouts|, i requires 0 <= i < |AbsoluteLayouts| => c.parseLayout(AbsoluteLayouts[i], s))
  }

  /** The first defined value of a sequence of candidates. */
  function FirstSome(xs: seq<Option<int>>): Option<int>
  {
    if xs == [] then None else if xs[0].Some? then xs[0] else FirstSome(xs[1..])
  }

  lemma {:induction false} FirstSomeOfLayouts(c: Clock, layouts: seq<string>, s: string)
    ensures FirstSome(seq(|layouts|, i requires 0 <= i < |layouts| => c.parseLayout(layouts[i], s)))
            == FirstLayout(c, layouts, s)
  {
    var xs := seq(|layouts|, i requires 0 <= i < |layouts| => c.parseLayout(layouts[i], s));
    if layouts != [] {
      FirstSomeOfLayouts(c, layouts[1..], s);
      assert xs[1..] == seq(|layouts[1..]|, i requires 0 <= i < |layouts[1..]| => c.parseLayout(layouts[1..][i], s));
    }
  }

  /** `ParseTime` succeeds with exactly the first rule that yields an instant,
      and fails exactly when none does. */
  lemma ParseTimeIsFirstCandidate(c: Clock, s: string)
    ensures ParseTime(c, s) == (match FirstSome(Candidates(c, s))
                                case Some(t) => Success(t)
                                case None => Failure(UnsupportedTimeFormat(s)))
  {
    var xs := Candidates(c, s);
    var ls := seq(|AbsoluteLayouts|, i requires 0 <= i < |AbsoluteLayouts| => c.parseLayout(AbsoluteLayouts[i], s));
    assert xs[2..] == ls;
    assert xs[1..][1..] == ls;
    FirstSomeOfLayouts(c, AbsoluteLayouts, s);
    assert ls[1..] == seq(|FallbackLayouts|, i requires 0 <= i < |FallbackLayouts| => c.parseLayout(FallbackLayouts[i], s));
    FirstSomeOfLayouts(c, FallbackLayouts, s);
  }
}

=== FILE: urls.dfy ===
/** The three `build*URL` functions: the endpoint path rule and the
    overwrite-semantics query parameters.

    `net/url` is not re-implemented: a parsed URL is a record whose path is
    Go's decoded `u.Path` and whose query is `u.Query()`; parsing the base URL
    and `url.PathEscape` are opaque functions supplied by the caller. */
module UrlBuilder {
  import opened Base
  import opened Text

  /** `origin` stands for everything other than path and query (scheme,
      credentials, host, fragment), which the builders pass through. */
  datatype Url = Url(origin: string, path: string, query: map<string, seq<string>>)

  const ApiPrefix := "loki/api/v1"
  const QueryRangeOp := "query_range"
  const LabelsOp := "labels"

  /** The path rule of `buildLokiQueryURL` and `buildLokiLabelsURL`. */
  function EndpointPath(path: string, op: string): (r: string)
    ensures Contains(r, ApiPrefix) && HasSuffix(r, op)
    ensures HasPrefix(r, path)
    ensures Contains(path, ApiPrefix) && HasSuffix(path, op) <==> r == path
    ensures !Contains(path, ApiPrefix) && (path == "" || path == "/") ==> r == "/" + ApiPrefix + "/" + op
    ensures !Contains(path, ApiPrefix) && path != "" && path != "/" ==> r == path + "/" + ApiPrefix + "/" + op
    ensures Contains(path, ApiPrefix) && !HasSuffix(path, op) ==> r == path + "/" + op
  {
    if !Contains(path, ApiPrefix) then
      var r := if path == "" || path == "/" then "/" + ApiPrefix + "/" + op
               else path + "/" + ApiPrefix + "/" + op;
      ContainsInfix(if path == "" || path == "/" then "/" else path + "/", ApiPrefix, "/" + op);
      assert r == (if path == "" || path == "/" then "/" else path + "/") + ApiPrefix + ("/" + op);
      SuffixOfAppend((if path == "" || path == "/" then "/" else path + "/") + ApiPrefix + "/", op);
      r
    else if HasSuffix(path, op) then path
    else
      ContainsExtend(path, ApiPrefix, "/" + op);
      assert path + "/" + op == path + ("/" + op);
      SuffixOfAppend(path + "/", op);
      path + "/" + op
  }

  /** Running the path rule on its own output changes nothing. */
  lemma EndpointPathIdempotent(path: string, op: string)
    ensures EndpointPath(EndpointPath(path, op), op) == EndpointPath(path, op)
  {
  }

  /** The path segments of the label-values endpoint below the API prefix. */
  function LabelValuesSuffix(escapedLabel: string): string
  {
    "/label/" + escapedLabel + "/values"
  }

  /** The label-values tail ends with itself and contains "/label/". */
  lemma LabelValuesTail(before: string, escapedLabel: string)
    ensures Contains(before + LabelValuesSuffix(escapedLabel), "/label/")
    ensures HasSuffix(before + LabelValuesSuffix(escapedLabel), LabelValuesSuffix(escapedLabel))
  {
    ContainsInfix(before, "/label/", escapedLabel + "/values");
    assert before + LabelValuesSuffix(escapedLabel) == before + "/label/" + (escapedLabel + "/values");
    SuffixOfAppend(before, LabelValuesSuffix(escapedLabel));
  }

  /** The path rule of `buildLokiLabelValuesURL`: the test below the prefix is
      for "/label/", and a path that has it is left untouched. */
  function LabelValuesPath(path: string, escapedLabel: string): (r: string)
    ensures Contains(r, ApiPrefix) && Contains(r, "/label/")
    ensures HasPrefix(r, path)
    ensures Contains(path, ApiPrefix) && Contains(path, "/label/") <==> r == path
    ensures !Contains(path, "/label/") ==> HasSuffix(r, LabelValuesSuffix(escapedLabel))
    ensures !Contains(path, ApiPrefix) && (path == "" || path == "/") ==>
              r == "/" + ApiPrefix + LabelValuesSuffix(escapedLabel)
    ensures !Contains(path, ApiPrefix) && path != "" && path != "/" ==>
              r == path + "/" + ApiPrefix + LabelValuesSuffix(escapedLabel)
    ensures Contains(path, ApiPrefix) && !Contains(path, "/label/") ==> r == path + LabelValuesSuffix(escapedLabel)
  {
    var tail := LabelValuesSuffix(escapedLabel);
    if !Contains(path, ApiPrefix) then
      var head := if path == "" || path == "/" then "/" else path + "/";
      ContainsInfix(head, ApiPrefix, tail);
      LabelValuesTail(head + ApiPrefix, escapedLabel);
      head + ApiPrefix + tail
    else if !Contains(path, "/label/") then
      ContainsExtend(path, ApiPrefix, tail);
      LabelValuesTail(path, escapedLabel);
      path + tail
    else path
  }

  lemma LabelValuesPathIdempotent(path: string, escapedLabel: string)
    ensures LabelValuesPath(LabelValuesPath(path, escapedLabel), escapedLabel) == LabelValuesPath(path, escapedLabel)
  {
  }

  /** `url.Values.Set`: the key ends up with exactly the one value. */
  function SetParam(q: map<string, seq<string>>, key: string, value: string): map<string, seq<string>>
  {
    q[key := [value]]
  }

  /** The query-parameter step of `buildLokiQueryURL`. */
  function QueryRangeParams(q: map<string, seq<string>>, query: string, start: int, end: int, limit: int)
    : (r: map<string, seq<string>>)
    ensures r.Keys == q.Keys + {"query", "start", "end", "limit"}
    ensures r["query"] == [query]
    ensures r["start"] == [IntToDecimal(start)] && r["end"] == [IntToDecimal(end)]
    ensures r["limit"] == [IntToDecimal(limit)]
    ensures forall k :: k in q && k != "query" && k != "start" && k != "end" && k != "limit" ==> r[k] == q[k]
  {
    var q1 := SetParam(q, "query", query);
    var q2 := SetParam(q1, "start", IntToDecimal(start));
    var q3 := SetParam(q2, "end", IntToDecimal(end));
    SetParam(q3, "limit", IntToDecimal(limit))
  }

  /** The query-parameter step of the two label builders. */
  function WindowParams(q: map<string, seq<string>>, start: int, end: int): (r: map<string, seq<string>>)
    ensures r.Keys == q.Keys + {"start", "end"}
    ensures r["start"] == [IntToDecimal(start)] && r["end"] == [IntToDecimal(end)]
    ensures forall k :: k in q && k != "start" && k != "end" ==> r[k] == q[k]
  {
    SetParam(SetParam(q, "start", IntToDecimal(start)), "end", IntToDecimal(end))
  }

  /** Each numeric parameter carries exactly one value, and that value reads
      back as the number it was built from. */
  lemma QueryRangeParamsReadBack(q: map<string, seq<string>>, query: string, start: int, end: int, limit: int)
    ensures var r := QueryRangeParams(q, query, start, end, limit);
      && |r["start"]| == 1 && ParseDecimal(r["start"][0]) == Some(start)
      && |r["end"]| == 1 && ParseDecimal(r["end"][0]) == Some(end)
      && |r["limit"]| == 1 && ParseDecimal(r["limit"][0]) == Some(limit)
  {
    DecimalRoundTrip(start);
    DecimalRoundTrip(end);
    DecimalRoundTrip(limit);
  }

  lemma WindowParamsReadBack(q: map<string, seq<string>>, start: int, end: int)
    ensures var r := WindowParams(q, start, end);
      && |r["start"]| == 1 && ParseDecimal(r["start"][0]) == Some(start)
      && |r["end"]| == 1 && ParseDecimal(r["end"][0]) == Some(end)
  {
    DecimalRoundTrip(start);
    DecimalRoundTrip(end);
  }

  /** `buildLokiQueryURL`: only a base URL that does not parse makes it fail. */
  function BuildQueryUrl(parse: string -> Result<Url>, base: string, query: string,
                         start: int, end: int, limit: int): (r: Result<Url>)
    ensures parse(base).Failure? <==> r.Failure?
    ensures r.Failure? ==> r.error == parse(base).error
    ensures r.Success? ==> var u := parse(base).value;
              && r.value.origin == u.origin
              && r.value.path == EndpointPath(u.path, QueryRangeOp)
              && r.value.query == QueryRangeParams(u.query, query, start, end, limit)
  {
    var u :- parse(base);
    Success(Url(u.origin, EndpointPath(u.path, QueryRangeOp), QueryRangeParams(u.query, query, start, end, limit)))
  }

  /** `buildLokiLabelsURL` */
  function BuildLabelsUrl(parse: string -> Result<Url>, base: string, start: int, end: int): (r: Result<Url>)
    ensures parse(base).Failure? <==> r.Failure?
    ensures r.Failure? ==> r.error == parse(base).error
    ensures r.Success? ==> var u := parse(base).value;
              && r.value.origin == u.origin
              && r.value.path == EndpointPath(u.path, LabelsOp)
              && r.value.query == WindowParams(u.query, start, end)
  {
    var u :- parse(base);
    Success(Url(u.origin, EndpointPath(u.path, LabelsOp), WindowParams(u.query, start, end)))
  }

  /** `buildLokiLabelValuesURL` */
  function BuildLabelValuesUrl(parse: string -> Result<Url>, pathEscape: string -> string, base: string,
                               labelName: string, start: int, end: int): (r: Result<Url>)
    ensures parse(base).Failure? <==> r.Failure?
    ensures r.Failure? ==> r.error == parse(base).error
    ensures r.Success? ==> var u := parse(base).value;
              && r.value.origin == u.origin
              && r.value.path == LabelValuesPath(u.path, pathEscape(labelName))
              && r.value.query == WindowParams(u.query, start, end)
  {
    var u :- parse(base);
    Success(Url(u.origin, LabelValuesPath(u.path, pathEscape(labelName)), WindowParams(u.query, start, end)))
  }

  /** Building again from a built URL changes nothing: the path is not
      extended twice and the parameters are overwritten, not repeated. */
  lemma BuildQueryUrlIdempotent(parse: string -> Result<Url>, base: string, query: string,
                                start: int, end: int, limit: int, again: string)
    requires BuildQueryUrl(parse, base, query, start, end, limit).Success?
    requires parse(again) == BuildQueryUrl(parse, base, query, start, end, limit)
    ensures BuildQueryUrl(parse, again, query, start, end, limit) == parse(again)
  {
    var u := parse(base).value;
    EndpointPathIdempotent(u.path, QueryRangeOp);
    var q := QueryRangeParams(u.query, query, start, end, limit);
    assert QueryRangeParams(q, query, start, end, limit) == q;
  }

  lemma BuildLabelsUrlIdempotent(parse: string -> Result<Url>, base: string, start: int, end: int, again: string)
    requires BuildLabelsUrl(parse, base, start, end).Success?
    requires parse(again) == BuildLabelsUrl(parse, base, start, end)
    ensures BuildLabelsUrl(parse, again, start, end) == parse(again)
  {
    var u := parse(base).value;
    EndpointPathIdempotent(u.path, LabelsOp);
    var q := WindowParams(u.query, start, end);
    assert WindowParams(q, start, end) == q;
  }

  lemma BuildLabelValuesUrlIdempotent(parse: string -> Result<Url>, pathEscape: string -> string, base: string,
                                      labelName: string, start: int, end: int, again: string)
    requires BuildLabelValuesUrl(parse, pathEscape, base, labelName, start, end).Success?
    requires parse(again) == BuildLabelValuesUrl(parse, pathEscape, base, labelName, start, end)
    ensures BuildLabelValuesUrl(parse, pathEscape, again, labelName, start, end) == parse(again)
  {
    var u := parse(base).value;
    LabelValuesPathIdempotent(u.path, pathEscape(labelName));
    var q := WindowParams(u.query, start, end);
    assert WindowParams(q, start, end) == q;
  }
}
